=== FILE: README.md ===
# Ionic playground: document state and share-link codec

This project models the logic of the playground's single component, `App`
(src/App.js). A user edits HTML in an editor. The saved version of the text
is rendered in a live preview and can be shared as a link.

The component keeps two texts: `code`, the working text in the editor, and
`savedCode`, the text last saved. Editing changes only `code`. Saving copies
`code` into `savedCode`. The page shows the share link while the two agree
and a Save button while they differ. The preview is always fed `savedCode`.

The share link is the page's own origin and path followed by
`?content=` and `encodeURIComponent(btoa(savedCode))`. On startup the
component reads the `content` parameter of its address, gives it to `atob`,
and seeds both texts with the result. If the parameter is missing, empty, or
decodes to the empty text, it uses the built-in default instead.

The modules follow that structure:

- `Results` (results.dfy): `Option` for JavaScript's `null`, `Result` for a value or the exception thrown instead.
- `Base64` (base64.dfy): `btoa` and `atob`. This is Base64 as in section 4 of RFC 4648, over binary strings whose characters are all at most U+00FF. `atob` is the WHATWG forgiving-base64 decode, which ignores ASCII whitespace and makes padding optional.
- `PercentEncoding` (percent.dfy): `encodeURIComponent`, which writes UTF-8 (RFC 3629) bytes as `%XX` escapes per sections 2.1 and 2.3 of RFC 3986. Also the percent-decoding of section 1.3 of the WHATWG URL Standard.
- `FormUrlencoded` (query.dfy): how a URL's query is found and parsed as application/x-www-form-urlencoded (section 5.1 of the WHATWG URL Standard), and `URLSearchParams.get`.
- `ShareLink` (link.dfy): `generatedLink` and `_getContent`, plus the round trip between them.
- `Playground` (playground.dfy): the `Document` state, the constructor, `onChange`, `runSave`, the clean/dirty branch of `render`, and sessions made of edits and saves.

Three behaviours of the code are kept as written:

- A malformed `content` parameter is not caught. `atob` throws inside the constructor, so the page fails to start instead of falling back to the default (`Playground.MalformedLinkThrows`).
- The codec handles only text whose characters are all at most U+00FF. For any other saved text `btoa` throws, so the clean render throws too (`Playground.Render`). This limit is kept as a precondition of the round trip; it is not fixed.
- An empty saved text produces the link `?content=`. Opening that link gives the default content, not an empty document (`Playground.OpenSharedLink`).

## Model

| member | source | states |
|---|---|---|
| `Base64.Btoa` | src/App.js:63 | `btoa` succeeds exactly when every character is at most U+00FF; its output is alphabet characters and `=`, has a length divisible by four, and is empty only for empty input |
| `Base64.Encode` | src/App.js:63 | padded Base64 output has a length divisible by four and uses only the 64 alphabet characters and `=` |
| `Base64.SextetsPadBits` | src/App.js:63 | the last sextet of a final one- or two-byte group has its 4 or 2 low bits zero |
| `Base64.EncodePadBits` | src/App.js:63 | the output is canonical per section 3.5 of RFC 4648: a final `==` follows a character whose value has its four low bits zero, and a single `=` follows one with its two low bits zero |
| `Base64.Atob` | src/App.js:40 | whatever `atob` returns is a binary string (every character at most U+00FF) and is no longer than its input |
| `Base64.AtobAlphabetText` | src/App.js:40 | text of alphabet characters alone whose length is not 1 modulo 4 always decodes, to the bytes its sextets make |
| `Base64.RemoveWhitespace` | src/App.js:40 | the first step of `atob` leaves no whitespace, drops a single whitespace character, keeps a single other character, and leaves whitespace-free text unchanged |
| `Base64.RemoveWhitespaceAppend` | src/App.js:40 | whitespace removal works piece by piece, so with the one-character cases it keeps the other characters in order and with their multiplicity |
| `Base64.RemoveWhitespaceMembers` | src/App.js:40 | a character remains after whitespace removal exactly when it occurs in the input and is not ASCII whitespace |
| `Base64.StripPadding` | src/App.js:40 | when the length is a multiple of four, `atob` drops a trailing `==` or a single trailing `=`; it drops nothing else and nothing at other lengths |
| `Base64.AtobBtoa` | src/App.js:63 | round trip: for every binary string `s`, `btoa(s)` succeeds and `atob(btoa(s))` returns `s` |
| `Base64.DecodeEncodeGroups` | src/App.js:63 | decoding the unpadded Base64 characters of any bytes gives back those bytes, including a final 1- or 2-byte group |
| `Base64.OctetsOfSextets` | src/App.js:63 | the 3-bytes-to-4-sextets split is undone by the 4-sextets-to-3-bytes join, for any byte sequence |
| `Base64.SextetsLength` | src/App.js:63 | byte counts of 0, 1 and 2 modulo three give sextet counts of 0, 2 and 3 modulo four, which is why the padding makes a multiple of four |
| `Base64.AtobRejectsForeign` | src/App.js:40 | `atob` throws on any input holding a character that is not an alphabet character, whitespace or `=` |
| `Base64.AtobRejectsLength` | src/App.js:40 | `atob` throws when the input without whitespace has a length of 1 modulo 4 |
| `Base64.AtobFailure` | src/App.js:40 | `atob` throws exactly when the input without whitespace has length 1 modulo 4, an `=` remains after the trailing padding is stripped, or a foreign character occurs |
| `Base64.AtobIgnoresWhitespace` | src/App.js:40 | `atob` gives the same result with all ASCII whitespace removed |
| `Base64.AtobUnpadded` | src/App.js:40 | padding is optional: the unpadded Base64 of every binary string decodes to that string |
| `Base64.AtobIgnoresPadBits` | src/App.js:40 | the leftover bits of a final partial group are discarded: after 4k+1 alphabet characters, two last characters with the same high two bits decode alike; after 4k+2, two with the same high four bits decode alike |
| `Base64.OctetsIgnoreLeftover` | src/App.js:40 | the same at the level of sextets: a last sextet that differs only in the bits beyond the final byte gives the same bytes |
| `Base64.ValueOfDigit` | src/App.js:63 | the character chosen for a 6-bit value decodes back to that value |
| `PercentEncoding.Utf8` | src/App.js:63 | a code point gets the shortest UTF-8 form: one byte equal to it when ASCII, otherwise a lead byte announcing 2, 3 or 4 bytes by its range, then continuation bytes whose six-bit payloads, read after the lead byte's bits, give back the code point |
| `PercentEncoding.EscapeDigits` | src/App.js:63 | each byte becomes `%` and two upper-case hexadecimal digits whose value is the byte |
| `PercentEncoding.EncodeChar` | src/App.js:63 | a safe character is kept as it is; any other character becomes escapes |
| `PercentEncoding.EncodeURIComponent` | src/App.js:63 | `encodeURIComponent` output is pure ASCII and never shorter than its input, and text made only of safe characters is returned unchanged |
| `PercentEncoding.PercentDecode` | src/App.js:39 | percent-decoding leaves text without `%` as its UTF-8 bytes |
| `PercentEncoding.PercentDecodeUnescaped` | src/App.js:39 | bytes with no `%` among them percent-decode to themselves |
| `PercentEncoding.PercentDecodeEscape` | src/App.js:39 | `%` and two hexadecimal digits of either case decode to the one byte of their value, ahead of whatever follows: `%3d` and `%3D` both give `=` |
| `PercentEncoding.PercentDecodeKeeps` | src/App.js:39 | a byte that does not begin an escape, a `%` without two hexadecimal digits after it included, is kept as it is |
| `PercentEncoding.PercentDecodeEncode` | src/App.js:63 | round trip: percent-decoding the output of `encodeURIComponent` gives the UTF-8 bytes of the original text, for every text |
| `PercentEncoding.PercentDecodeEncodeAscii` | src/App.js:63 | on ASCII text, percent-decoding the encoding gives back the character codes themselves |
| `FormUrlencoded.Split` | src/App.js:39 | splitting the query on `&` gives at least one piece, and no piece contains the separator |
| `FormUrlencoded.JoinSplit` | src/App.js:39 | splitting loses nothing: joining the pieces with the separator gives the query back |
| `FormUrlencoded.SplitJoin` | src/App.js:39 | pieces that contain no separator are exactly what splitting their join returns |
| `FormUrlencoded.ReplacePlus` | src/App.js:39 | the parser turns every `+` into a space and leaves every other character where it was |
| `FormUrlencoded.DecodeComponent` | src/App.js:39 | a name or value is decoded as section 5.1 of the WHATWG URL Standard says (`+` to space, percent-decode, UTF-8 decode); ASCII text without `%` only has its `+` turned into spaces |
| `FormUrlencoded.ParsePair` | src/App.js:39 | a piece is split at its first `=` into decoded name and value; without `=` the whole decoded piece is the name and the value is empty |
| `FormUrlencoded.ParsePairAt` | src/App.js:39 | `name=value` parses to the decoded name and value whenever the name has no `=`, even if the value does |
| `FormUrlencoded.ParsePieces` | src/App.js:39 | a single empty piece gives no pair and a single non-empty piece its own pair; runs of only empty or only non-empty pieces give no pair or one pair each, in order |
| `FormUrlencoded.ParsePiecesAppend` | src/App.js:39 | parsing works piece by piece, so with the one-piece cases empty pieces are skipped and every other piece gives its pair, in order |
| `FormUrlencoded.Parse` | src/App.js:39 | an empty query has no pairs, and a query without `&` is a single pair |
| `FormUrlencoded.ParseJoin` | src/App.js:39 | a query made of `&`-free pieces joined with `&`, empty ones included, parses to the pairs of those pieces |
| `FormUrlencoded.Get` | src/App.js:39 | `searchParams.get` is null exactly when no pair has the name; otherwise it returns the value of the first pair with that name |
| `FormUrlencoded.BeforeFragment` | src/App.js:39 | the URL without its fragment is the prefix before the first `#`, or the whole URL when it has none |
| `FormUrlencoded.QueryOf` | src/App.js:39 | the query of a URL never contains the fragment, and it is empty when the URL has no `?` before its first `#` |
| `FormUrlencoded.QueryOfWithFragment` | src/App.js:39 | the query of `base?rest#frag` is `rest`, whatever the fragment |
| `FormUrlencoded.SearchParam` | src/App.js:39 | `new URL(href).searchParams.get(name)` is null for an address with no query, including one whose only `?` is in the fragment |
| `FormUrlencoded.QueryOfAppend` | src/App.js:39 | for an address without `?` or `#`, the query of `address?rest` is `rest` whenever `rest` has no `#` |
| `ShareLink.ShareToken` | src/App.js:63 | the `content` value exists exactly for binary strings and consists only of RFC 3986 unreserved characters and `%XX` escapes |
| `ShareLink.EncodeBase64Text` | src/App.js:63 | `encodeURIComponent` of Base64 text keeps letters and digits and writes `+`, `/` and `=` as `%2B`, `%2F` and `%3D` |
| `ShareLink.EncodeBase64Token` | src/App.js:63 | percent-encoding any Base64 text escapes its `+`, `/` and `=` and leaves an unreserved token |
| `ShareLink.TokenChars` | src/App.js:63 | such a token contains no `&`, `+`, `=`, `#` or `?`, so query parsing cannot split or rewrite it |
| `ShareLink.DecodeToken` | src/App.js:39 | the query parser's decoding of the token gives back exactly the Base64 text it was made from |
| `ShareLink.GeneratedLink` | src/App.js:62-66 | the link exists exactly when `savedCode` is a binary string, and it begins with the page's origin and pathname |
| `ShareLink.LinkQuery` | src/App.js:65 | the query of a generated link is exactly `content=` followed by the token |
| `ShareLink.LinkCarriesBase64` | src/App.js:39 | reading `content` from a generated link gives back `btoa(savedCode)` unchanged |
| `ShareLink.GetContent` | src/App.js:38-41 | `_getContent` is null exactly when the parameter is absent, the empty text when it is empty, and otherwise `atob` of the parameter; it throws exactly when the parameter is non-empty and `atob` rejects it, with `atob`'s error |
| `ShareLink.ShareLinkRoundTrip` | src/App.js:38-41 | round trip: for every binary `savedCode`, `_getContent` on its generated link returns `savedCode` |
| `Playground.Startup` | src/App.js:27-31 | the constructor starts clean with a non-empty text and throws exactly when `_getContent` throws; an absent or empty parameter, or one decoding to the empty text, gives the default content in both texts; otherwise both texts are the decoded parameter |
| `Playground.UnsavedIffSaveChanges` | src/App.js:68-70 | `isUnsaved` holds exactly when saving would change the document |
| `Playground.OnChange` | src/App.js:72-74 | an edit sets the working text and keeps the saved text; the document is dirty afterwards exactly when the new text differs from the saved one |
| `Playground.RunSave` | src/App.js:56-60 | a save keeps the working text, makes it the saved text, leaves the document clean, and changes nothing when it already was clean |
| `Playground.SaveIdempotent` | src/App.js:56-60 | two saves without an edit in between equal one save |
| `Playground.DocumentLink` | src/App.js:62-66 | the `generatedLink` getter is defined exactly when the saved text is a binary string |
| `Playground.LinkIgnoresEdits` | src/App.js:62-66 | an edit never changes the link |
| `Playground.Render` | src/App.js:104-117 | render shows the Save button exactly when dirty and otherwise the link the `generatedLink` getter computes; the editor gets the working text and the preview the saved text; it throws exactly when clean with a saved text `btoa` rejects |
| `Playground.ExactlyOneControl` | src/App.js:107-110 | for a binary saved text, render succeeds, shows the document's generated link exactly when clean, and previews the saved text |
| `Playground.Step` | src/App.js:52 | an edit (`onChange`) replaces only the working text, a save (button or Ctrl/Cmd+S) copies it into the saved text, and afterwards the document is dirty exactly when the event was an edit to a text other than the saved one |
| `Playground.Run` | src/App.js:56-74 | events are handled in order: edits alone never change the saved text, and saves alone act as a single save |
| `Playground.RunHistory` | src/App.js:56-74 | after any sequence of edits and saves, the working text is the last edit and the saved text is the working text as it stood at the last save |
| `Playground.EditsKeepSaved` | src/App.js:110 | a session of edits only leaves the saved text, and so the preview, unchanged |
| `Playground.OpenSharedLink` | src/App.js:27-31 | opening a document's link starts with its saved text as both working and saved text, or with the default content if the saved text is empty |
| `Playground.MalformedLinkThrows` | src/App.js:38-41 | any `content` parameter that `atob` rejects makes startup throw; there is no fallback to the default content |
| `Playground.ForeignCharacterLinkThrows` | src/App.js:40 | a `content` parameter holding a character outside the Base64 alphabet, whitespace and `=` makes startup throw |
| `Playground.PercentLinkThrows` | src/App.js:38-41 | on every page, the link ending in `?content=%` makes startup throw |

## Left out

- config-overrides.js: build configuration for the editor bundle. It has no runtime behaviour.
- `addModules` (src/App.js:76-96): it appends script and style elements from a CDN to the page. This is DOM I/O and has no effect on the state.
- The `setTimeout` that adds the `hydrated` class (src/App.js:33-35): a timer-driven DOM side effect.
- `editorDidMount` (src/App.js:43-54): focusing the editor and registering the action are editor wiring. The Ctrl/Cmd+S action is modelled only as the `Save` event, which runs `runSave`. Its `!editorReadonly` context is not modelled, because this editor is never configured read-only.
- The live evaluation and preview (`LiveProvider`, `LiveError`, `LivePreview`, src/App.js:110-125): these are foreign libraries. The model states only that they receive `savedCode`.
- `window.location`: the page's `href`, `origin` and `pathname` are parameters. The URL parser is not modelled. The query is taken as the text after the first `?` and before the first `#`, without the parser's own re-encoding.
- React's `setState` scheduling: each event is handled completely before the next one, as a pure step on the document.
- Non-Latin-1 text: the code does not round-trip it, so the round trip is stated only for binary strings.
- Lone UTF-16 surrogates: a Dafny `char` is a Unicode scalar value, so the `URIError` that `encodeURIComponent` throws on them cannot arise in the model.
- FormUrlencoded.Utf8DecodeLossy: weaker than UTF-8 decoding. Each byte of 0x80 or above becomes U+FFFD instead of being decoded as a multi-byte sequence. ASCII is decoded exactly, and non-ASCII bytes still give non-ASCII characters. The model's results do not depend on the difference: `atob` rejects every non-ASCII character, and no non-ASCII name can equal `content`.

=== FILE: base64.dfy ===
/**
 * The browser's `btoa` and `atob`: Base64 (section 4 of RFC 4648) over binary
 * strings, that is strings whose every character is at most U+00FF and stands
 * for one byte. `btoa` pads with `=`; `atob` is the WHATWG "forgiving-base64
 * decode", which drops ASCII whitespace, accepts the padding or its absence and
 * discards the leftover bits of a final partial quantum.
 */
module Base64 {
  import opened Results

  /** One byte of a binary string. */
  type Byte = b: int | 0 <= b < 256

  /** The `InvalidCharacterError` DOMException both functions throw. */
  datatype DomError = InvalidCharacterError

  /** Every character fits in one byte, as `btoa` demands. */
  predicate IsLatin1(s: string) {
    forall i :: 0 <= i < |s| ==> s[i] as int < 256
  }

  /** Every character is 7-bit ASCII. */
  predicate IsAscii(s: string) {
    forall i :: 0 <= i < |s| ==> s[i] as int < 128
  }

  /** The bytes a binary string stands for. */
  function ToBytes(s: string): (b: seq<Byte>)
    requires IsLatin1(s)
    ensures |b| == |s|
    ensures forall i :: 0 <= i < |s| ==> b[i] == s[i] as int
  {
    if s == [] then [] else [s[0] as int] + ToBytes(s[1..])
  }

  /** The binary string that stands for some bytes. */
  function FromBytes(b: seq<Byte>): (s: string)
    ensures |s| == |b|
    ensures forall i :: 0 <= i < |b| ==> s[i] as int == b[i]
  {
    if b == [] then [] else [b[0] as char] + FromBytes(b[1..])
  }

  lemma ToBytesAppend(a: string, b: string)
    requires IsLatin1(a) && IsLatin1(b)
    ensures IsLatin1(a + b)
    ensures ToBytes(a + b) == ToBytes(a) + ToBytes(b)
  {
    assert forall i :: 0 <= i < |a + b| ==> (a + b)[i] == if i < |a| then a[i] else b[i - |a|];
  }

  lemma FromBytesToBytes(s: string)
    requires IsLatin1(s)
    ensures IsLatin1(FromBytes(ToBytes(s)))
    ensures FromBytes(ToBytes(s)) == s
  {
  }

  // ---------------------------------------------------------------- alphabet

  /** The 64 characters of the Base64 alphabet (Table 1 of RFC 4648). */
  predicate IsAlphabet(c: char) {
    'A' <= c <= 'Z' || 'a' <= c <= 'z' || '0' <= c <= '9' || c == '+' || c == '/'
  }

  /** Every character is one of the 64. */
  predicate AllAlphabet(s: string) {
    forall i :: 0 <= i < |s| ==> IsAlphabet(s[i])
  }

  /** The 6-bit value a character of the alphabet encodes. */
  function Value(c: char): (v: int)
    requires IsAlphabet(c)
    ensures 0 <= v < 64
  {
    if 'A' <= c <= 'Z' then c as int - 'A' as int
    else if 'a' <= c <= 'z' then c as int - 'a' as int + 26
    else if '0' <= c <= '9' then c as int - '0' as int + 52
    else if c == '+' then 62
    else 63
  }

  /** The distance from a 6-bit value to the code point of its character. */
  function DigitOffset(v: int): int {
    if v < 26 then 'A' as int
    else if v < 52 then 'a' as int - 26
    else if v < 62 then '0' as int - 52
    else if v == 62 then '+' as int - 62
    else '/' as int - 63
  }

  /** The character of the alphabet that encodes a 6-bit value. */
  function Digit(v: int): (c: char)
    requires 0 <= v < 64
    ensures IsAlphabet(c)
  {
    (v + DigitOffset(v)) as char
  }

  /** Value and Digit are inverse bijections between the alphabet and 0..63. */
  lemma ValueOfDigit(v: int)
    requires 0 <= v < 64
    ensures Value(Digit(v)) == v
  {
  }

  /** A sextet: the 6-bit value one character of the alphabet stands for. */
  type Sextet = v: int | 0 <= v < 64

  /** The characters that stand for some sextets. */
  function Digits(v: seq<Sextet>): (s: string)
    ensures |s| == |v| && AllAlphabet(s)
  {
    seq(|v|, i requires 0 <= i < |v| => Digit(v[i]))
  }

  /** The sextets some alphabet characters stand for. */
  function Values(s: string): (v: seq<Sextet>)
    requires AllAlphabet(s)
    ensures |v| == |s|
  {
    seq(|s|, i requires 0 <= i < |s| => Value(s[i]))
  }

  lemma ValuesOfDigits(v: seq<Sextet>)
    ensures Values(Digits(v)) == v
  {
    var s := Digits(v);
    forall i | 0 <= i < |v|
      ensures Values(s)[i] == v[i]
    {
      ValueOfDigit(v[i]);
    }
  }

  // ---------------------------------------------------------------- encoding

  /**
   * The sextets of some bytes, without padding: each full 3-byte group gives
   * four sextets, a final single byte two (its low 4 bits followed by zero
   * bits) and a final pair of bytes three (section 4 of RFC 4648).
   */
  function Sextets(b: seq<Byte>): (v: seq<Sextet>)
    ensures |v| % 4 != 1
    ensures |v| == 0 <==> |b| == 0
    decreases |b|
  {
    if |b| == 0 then []
    else if |b| == 1 then [b[0] / 4, b[0] % 4 * 16]
    else if |b| == 2 then [b[0] / 4, b[0] % 4 * 16 + b[1] / 16, b[1] % 16 * 4]
    else [b[0] / 4, b[0] % 4 * 16 + b[1] / 16, b[1] % 16 * 4 + b[2] / 64, b[2] % 64] + Sextets(b[3..])
  }

  /**
   * Three bytes make four sextets; a final one or two bytes make two or
   * three, so that the padding brings the count to a multiple of four.
   */
  lemma {:induction false} SextetsLength(b: seq<Byte>)
    ensures |Sextets(b)| % 4 == 0 <==> |b| % 3 == 0
    ensures |Sextets(b)| % 4 == 2 <==> |b| % 3 == 1
    ensures |Sextets(b)| % 4 == 3 <==> |b| % 3 == 2
    decreases |b|
  {
    if |b| >= 3 {
      SextetsLength(b[3..]);
    }
  }

  /** The alphabet characters for some bytes, before the `=` padding is added. */
  function EncodeGroups(b: seq<Byte>): (s: string)
    ensures |s| % 4 != 1 && AllAlphabet(s)
    ensures |s| == 0 <==> |b| == 0
  {
    Digits(Sextets(b))
  }

  /** The `=` characters that complete the final quantum of `n` bytes. */
  function Padding(n: nat): (p: string)
    ensures forall i :: 0 <= i < |p| ==> p[i] == '='
    ensures |p| <= 2
  {
    if n % 3 == 1 then "==" else if n % 3 == 2 then "=" else ""
  }

  /** Base64 with padding: the output always has a length divisible by four. */
  function Encode(b: seq<Byte>): (s: string)
    ensures |s| % 4 == 0
    ensures forall i :: 0 <= i < |s| ==> IsAlphabet(s[i]) || s[i] == '='
  {
    SextetsLength(b);
    EncodeGroups(b) + Padding(|b|)
  }

  /** `btoa`: throws when a character does not fit in one byte. */
  function Btoa(s: string): (r: Result<string, DomError>)
    ensures r.Success? <==> IsLatin1(s)
    ensures r.Success? ==> |r.value| % 4 == 0 && (r.value == "" <==> s == "")
    ensures r.Success? ==> forall i :: 0 <= i < |r.value| ==> IsAlphabet(r.value[i]) || r.value[i] == '='
  {
    if IsLatin1(s) then Success(Encode(ToBytes(s))) else Failure(InvalidCharacterError)
  }

  // ---------------------------------------------------------------- decoding

  /** ASCII whitespace as the Infra standard defines it: TAB, LF, FF, CR and SPACE. */
  predicate IsAsciiWhitespace(c: char) {
    c == '\t' || c == '\n' || c == '\U{000C}' || c == '\r' || c == ' '
  }

  /** The input with every ASCII whitespace character removed, in order. */
  function RemoveWhitespace(s: string): (r: string)
    ensures |r| <= |s|
    ensures forall i :: 0 <= i < |r| ==> !IsAsciiWhitespace(r[i])
    ensures (forall i :: 0 <= i < |s| ==> !IsAsciiWhitespace(s[i])) ==> r == s
    ensures |s| == 1 ==> r == (if IsAsciiWhitespace(s[0]) then "" else s)
  {
    if s == [] then []
    else (if IsAsciiWhitespace(s[0]) then [] else [s[0]]) + RemoveWhitespace(s[1..])
  }

  /**
   * Removing whitespace works piece by piece: together with the one-character
   * case of its contract this says the non-whitespace characters are kept in
   * order and with their multiplicity.
   */
  lemma {:induction false} RemoveWhitespaceAppend(a: string, b: string)
    ensures RemoveWhitespace(a + b) == RemoveWhitespace(a) + RemoveWhitespace(b)
    decreases |a|
  {
    if a == [] {
      assert a + b == b;
    } else {
      var ab := a + b;
      assert ab[0] == a[0] && ab[1..] == a[1..] + b;
      // both start with the same character, so both contribute the same head
      var head := RemoveWhitespaceFront(ab);
      var sameHead := RemoveWhitespaceFront(a);
      RemoveWhitespaceAppend(a[1..], b);
      var y, z := RemoveWhitespace(a[1..]), RemoveWhitespace(b);
      assert head + (y + z) == (sameHead + y) + z;
    }
  }

  /** Whitespace removal looks at the first character, then at the rest; `head` is what the first character contributes. */
  lemma RemoveWhitespaceFront(s: string) returns (head: string)
    requires s != []
    ensures head == (if IsAsciiWhitespace(s[0]) then [] else [s[0]])
    ensures RemoveWhitespace(s) == head + RemoveWhitespace(s[1..])
  {
    head := if IsAsciiWhitespace(s[0]) then [] else [s[0]];
  }

  /** A character survives whitespace removal exactly when it occurs in the input and is not whitespace. */
  lemma {:induction false} RemoveWhitespaceMembers(s: string)
    ensures forall c :: c in RemoveWhitespace(s) <==> c in s && !IsAsciiWhitespace(c)
    decreases |s|
  {
    if s != [] {
      var head := if IsAsciiWhitespace(s[0]) then [] else [s[0]];
      assert RemoveWhitespace(s) == head + RemoveWhitespace(s[1..]);
      RemoveWhitespaceMembers(s[1..]);
      assert s == [s[0]] + s[1..];
    }
  }

  /**
   * When the length is a multiple of four, one or two trailing `=` are
   * dropped; otherwise nothing is.
   */
  function StripPadding(s: string): (r: string)
    ensures |s| - 2 <= |r| <= |s| && r == s[..|r|]
    ensures forall i :: |r| <= i < |s| ==> s[i] == '='
    ensures |r| < |s| ==> |s| % 4 == 0
    ensures |s| % 4 == 0 && |s| >= 2 && s[|s| - 2] == '=' && s[|s| - 1] == '=' ==> |r| == |s| - 2
    ensures |s| % 4 == 0 && |s| >= 2 && s[|s| - 2] != '=' && s[|s| - 1] == '=' ==> |r| == |s| - 1
  {
    if |s| % 4 == 0 && |s| >= 2 && s[|s| - 2] == '=' && s[|s| - 1] == '=' then s[..|s| - 2]
    else if |s| % 4 == 0 && |s| >= 1 && s[|s| - 1] == '=' then s[..|s| - 1]
    else s
  }

  /**
   * The bytes some sextets stand for: four sextets give three bytes, a final
   * two give one byte and a final three give two, the leftover low bits being
   * discarded.
   */
  function Octets(v: seq<Sextet>): (b: seq<Byte>)
    requires |v| % 4 != 1
    ensures |b| <= |v|
    decreases |v|
  {
    if |v| == 0 then []
    else if |v| == 2 then [FirstOctet(v[0], v[1])]
    else if |v| == 3 then [FirstOctet(v[0], v[1]), SecondOctet(v[1], v[2])]
    else [FirstOctet(v[0], v[1]), SecondOctet(v[1], v[2]), ThirdOctet(v[2], v[3])] + Octets(v[4..])
  }

  /** The first byte of a quantum: all six bits of one sextet, the high two of the next. */
  function FirstOctet(v0: Sextet, v1: Sextet): Byte {
    v0 * 4 + v1 / 16
  }

  /** The second byte of a quantum: the low four bits of one sextet, the high four of the next. */
  function SecondOctet(v1: Sextet, v2: Sextet): Byte {
    v1 % 16 * 16 + v2 / 4
  }

  /** The third byte of a quantum: the low two bits of one sextet and all six of the next. */
  function ThirdOctet(v2: Sextet, v3: Sextet): Byte {
    v2 % 4 * 64 + v3
  }

  /** The bytes that unpadded alphabet characters stand for. */
  function DecodeGroups(s: string): (b: seq<Byte>)
    requires |s| % 4 != 1 && AllAlphabet(s)
  {
    Octets(Values(s))
  }

  /** `atob`: the forgiving-base64 decode, throwing where it returns failure. */
  function Atob(s: string): (r: Result<string, DomError>)
    ensures r.Success? ==> IsLatin1(r.value)
    ensures r.Success? ==> |r.value| <= |s|
  {
    var t := StripPadding(RemoveWhitespace(s));
    if |t| % 4 == 1 || !AllAlphabet(t) then Failure(InvalidCharacterError)
    else Success(FromBytes(DecodeGroups(t)))
  }

  // ---------------------------------------------------------------- properties

  /** One full quantum: three bytes survive the trip through four sextets. */
  lemma Quantum3(x: Byte, y: Byte, z: Byte)
    ensures FirstOctet(x / 4, x % 4 * 16 + y / 16) == x
    ensures SecondOctet(x % 4 * 16 + y / 16, y % 16 * 4 + z / 64) == y
    ensures ThirdOctet(y % 16 * 4 + z / 64, z % 64) == z
  {
  }

  /** A full quantum at the front of the bytes gives four sextets at the front. */
  lemma SextetsFront(b: seq<Byte>)
    requires |b| >= 3
    ensures |Sextets(b)| >= 4
    ensures Sextets(b)[4..] == Sextets(b[3..])
    ensures Octets(Sextets(b)[..4]) == b[..3]
  {
    var q := Sextets(b)[..4];
    Quantum3(b[0], b[1], b[2]);
    assert q[4..] == [];
    assert Octets(q) == [FirstOctet(q[0], q[1]), SecondOctet(q[1], q[2]), ThirdOctet(q[2], q[3])] + Octets(q[4..]);
  }

  /** Decoding takes a full quantum of sextets off the front. */
  lemma OctetsFront(v: seq<Sextet>)
    requires |v| >= 4 && |v| % 4 != 1
    ensures Octets(v) == Octets(v[..4]) + Octets(v[4..])
  {
    var q := v[..4];
    var front := [FirstOctet(v[0], v[1]), SecondOctet(v[1], v[2]), ThirdOctet(v[2], v[3])];
    assert q[4..] == [];
    assert Octets(q) == front + Octets(q[4..]);
  }

  /** A last single byte survives the trip through its two sextets. */
  lemma OctetsOfOneByte(x: Byte)
    ensures Octets(Sextets([x])) == [x]
  {
    var v := Sextets([x]);
    assert v == [x / 4, x % 4 * 16];
    Quantum3(x, 0, 0);
    assert Octets(v) == [FirstOctet(v[0], v[1])];
  }

  /** A last pair of bytes survives the trip through its three sextets. */
  lemma OctetsOfTwoBytes(x: Byte, y: Byte)
    ensures Octets(Sextets([x, y])) == [x, y]
  {
    var v := Sextets([x, y]);
    assert v == [x / 4, x % 4 * 16 + y / 16, y % 16 * 4];
    Quantum3(x, y, 0);
    assert Octets(v) == [FirstOctet(v[0], v[1]), SecondOctet(v[1], v[2])];
  }

  /** Decoding the sextets of some bytes gives back the bytes. */
  lemma {:induction false} OctetsOfSextets(b: seq<Byte>)
    ensures Octets(Sextets(b)) == b
    decreases |b|
  {
    if |b| == 1 {
      OctetsOfOneByte(b[0]);
      assert b == [b[0]];
    } else if |b| == 2 {
      OctetsOfTwoBytes(b[0], b[1]);
      assert b == [b[0], b[1]];
    } else if |b| >= 3 {
      SextetsFront(b);
      OctetsFront(Sextets(b));
      OctetsOfSextets(b[3..]);
      assert b == b[..3] + b[3..];
    }
  }

  /** Decoding the unpadded characters gives back the bytes. */
  lemma DecodeEncodeGroups(b: seq<Byte>)
    ensures DecodeGroups(EncodeGroups(b)) == b
  {
    ValuesOfDigits(Sextets(b));
    OctetsOfSextets(b);
  }

  /** Encoded text holds no whitespace, so the decoder's first step keeps it whole. */
  lemma NoWhitespaceInEncode(b: seq<Byte>)
    ensures RemoveWhitespace(Encode(b)) == Encode(b)
  {
    var s := Encode(b);
    forall i | 0 <= i < |s|
      ensures !IsAsciiWhitespace(s[i])
    {
      assert IsAlphabet(s[i]) || s[i] == '=';
    }
  }

  /** Stripping the padding of encoded text leaves the unpadded characters. */
  lemma StripEncode(b: seq<Byte>)
    ensures StripPadding(Encode(b)) == EncodeGroups(b)
  {
    var s := Encode(b);
    var g := EncodeGroups(b);
    var p := Padding(|b|);
    assert s == g + p;
    if |b| % 3 == 1 {
      assert p == "==";
      assert s[..|s| - 2] == g;
    } else if |b| % 3 == 2 {
      assert p == "=";
      assert s[|s| - 2] == g[|g| - 1];
      assert IsAlphabet(g[|g| - 1]);
      assert s[..|s| - 1] == g;
    } else {
      assert p == "";
      assert s == g;
      if |s| > 0 {
        assert s[|s| - 1] == g[|g| - 1];
        assert IsAlphabet(g[|g| - 1]);
      }
    }
  }

  /** The Base64 round trip: `atob(btoa(s)) == s` for every binary string. */
  lemma AtobBtoa(s: string)
    requires IsLatin1(s)
    ensures Btoa(s).Success?
    ensures Atob(Btoa(s).value) == Success(s)
  {
    var b := ToBytes(s);
    var e := Encode(b);
    assert Btoa(s).value == e;
    NoWhitespaceInEncode(b);
    StripEncode(b);
    var t := StripPadding(RemoveWhitespace(e));
    assert t == EncodeGroups(b);
    assert |t| % 4 != 1 && AllAlphabet(t);
    DecodeEncodeGroups(b);
    FromBytesToBytes(s);
    assert Atob(e) == Success(FromBytes(DecodeGroups(t)));
  }

  /**
   * `atob` rejects any input holding a character that is neither in the
   * alphabet, nor whitespace, nor `=`.
   */
  lemma AtobRejectsForeign(s: string, k: nat)
    requires k < |s| && !IsAlphabet(s[k]) && !IsAsciiWhitespace(s[k]) && s[k] != '='
    ensures Atob(s).Failure?
  {
    var w := RemoveWhitespace(s);
    RemoveWhitespaceMembers(s);
    assert s[k] in s;
    assert s[k] in w;
    var j :| 0 <= j < |w| && w[j] == s[k];
    var t := StripPadding(w);
    assert j < |t|;
    assert t[j] == s[k];
  }

  /** `atob` rejects an input whose non-whitespace length leaves remainder 1 modulo 4. */
  lemma AtobRejectsLength(s: string)
    requires |RemoveWhitespace(s)| % 4 == 1
    ensures Atob(s).Failure?
  {
  }

  /** A character `atob` can never accept: outside the alphabet, not whitespace and not `=`. */
  predicate IsForeign(c: char) {
    !IsAlphabet(c) && !IsAsciiWhitespace(c) && c != '='
  }

  /** `atob` ignores ASCII whitespace wherever it occurs. */
  lemma AtobIgnoresWhitespace(s: string)
    ensures Atob(s) == Atob(RemoveWhitespace(s))
  {
    var w := RemoveWhitespace(s);
    assert RemoveWhitespace(w) == w;
  }

  /** Padding is optional: the unpadded Base64 of a binary string decodes to it too. */
  lemma AtobUnpadded(s: string)
    requires IsLatin1(s)
    ensures Atob(EncodeGroups(ToBytes(s))) == Success(s)
  {
    var b := ToBytes(s);
    var g := EncodeGroups(b);
    assert forall i :: 0 <= i < |g| ==> !IsAsciiWhitespace(g[i]) by {
      forall i | 0 <= i < |g|
        ensures !IsAsciiWhitespace(g[i])
      {
        assert IsAlphabet(g[i]);
      }
    }
    assert RemoveWhitespace(g) == g;
    var t := StripPadding(g);
    if |g| > 0 {
      assert IsAlphabet(g[|g| - 1]);
    }
    assert t == g;
    DecodeEncodeGroups(b);
    FromBytesToBytes(s);
  }

  /**
   * Exactly when `atob` throws: the input without whitespace has length 1
   * modulo 4, an `=` is left after the trailing padding is stripped, or it
   * holds a foreign character.
   */
  lemma AtobFailure(s: string)
    ensures Atob(s).Failure? <==>
              |RemoveWhitespace(s)| % 4 == 1
              || '=' in StripPadding(RemoveWhitespace(s))
              || exists k :: 0 <= k < |s| && IsForeign(s[k])
  {
    var w := RemoveWhitespace(s);
    var t := StripPadding(w);
    assert Atob(s).Failure? <==> |t| % 4 == 1 || !AllAlphabet(t);
    StrippedLength(w);
    if !AllAlphabet(t) {
      var k := StrayCharacter(s);
      if '=' !in t {
        assert 0 <= k < |s| && IsForeign(s[k]);
      }
    }
    if k :| 0 <= k < |s| && IsForeign(s[k]) {
      AtobRejectsForeign(s, k);
    }
  }

  /** Stripping the padding never turns a length into 1 modulo 4, nor out of it. */
  lemma StrippedLength(w: string)
    ensures |StripPadding(w)| % 4 == 1 <==> |w| % 4 == 1
  {
    var t := StripPadding(w);
    if |t| < |w| {
      assert |w| % 4 == 0;
      assert |t| == |w| - 1 || |t| == |w| - 2;
    }
  }

  /** A character outside the alphabet left after stripping is an `=`, or comes from a foreign character at `k`. */
  lemma StrayCharacter(s: string) returns (k: int)
    requires !AllAlphabet(StripPadding(RemoveWhitespace(s)))
    ensures '=' in StripPadding(RemoveWhitespace(s)) || (0 <= k < |s| && IsForeign(s[k]))
  {
    var w := RemoveWhitespace(s);
    var t := StripPadding(w);
    var j :| 0 <= j < |t| && !IsAlphabet(t[j]);
    var c := t[j];
    assert c == w[j];
    k := -1;
    if c != '=' {
      RemoveWhitespaceMembers(s);
      assert c in w;
      assert c in s && !IsAsciiWhitespace(c);
      k :| 0 <= k < |s| && s[k] == c;
    }
  }

  /** The last sextet before padding carries only zero bits past the data (section 3.5 of RFC 4648). */
  lemma {:induction false} SextetsPadBits(b: seq<Byte>)
    ensures |b| % 3 == 1 ==> |Sextets(b)| >= 2 && Sextets(b)[|Sextets(b)| - 1] % 16 == 0
    ensures |b| % 3 == 2 ==> |Sextets(b)| >= 3 && Sextets(b)[|Sextets(b)| - 1] % 4 == 0
    decreases |b|
  {
    if |b| == 1 {
      LastSextetOfOneByte(b[0]);
      assert b == [b[0]];
    } else if |b| == 2 {
      LastSextetOfTwoBytes(b[0], b[1]);
      assert b == [b[0], b[1]];
    } else if |b| >= 3 && |b| % 3 != 0 {
      var v, w := Sextets(b), Sextets(b[3..]);
      SextetsTail(b);
      SextetsPadBits(b[3..]);
      assert v[|v| - 1] == w[|w| - 1];
    }
  }

  /** The sextets after the first quantum are those of the bytes after the first three. */
  lemma SextetsTail(b: seq<Byte>)
    requires |b| >= 3
    ensures |Sextets(b)| == 4 + |Sextets(b[3..])| && Sextets(b)[4..] == Sextets(b[3..])
  {
  }

  /** A lone byte leaves two sextets, the second with its four low bits zero. */
  lemma LastSextetOfOneByte(x: Byte)
    ensures |Sextets([x])| == 2 && Sextets([x])[1] % 16 == 0
  {
    var low := x % 4;
    assert Sextets([x])[1] == low * 16;
    assert low == 0 || low == 1 || low == 2 || low == 3;
  }

  /** Two bytes leave three sextets, the third with its two low bits zero. */
  lemma LastSextetOfTwoBytes(x: Byte, y: Byte)
    ensures |Sextets([x, y])| == 3 && Sextets([x, y])[2] % 4 == 0
  {
    var low := y % 16;
    assert Sextets([x, y])[2] == low * 4;
    assert low * 4 % 4 == 0 by {
      assert 0 <= low < 16;
    }
  }

  /**
   * `btoa`'s output is canonical: the character before `==` has its four low
   * bits zero, and the character before a single `=` its two low bits.
   */
  lemma EncodePadBits(b: seq<Byte>)
    ensures var s := Encode(b);
            |b| % 3 == 1 ==> |s| >= 4 && s[|s| - 2..] == "==" && IsAlphabet(s[|s| - 3]) && Value(s[|s| - 3]) % 16 == 0
    ensures var s := Encode(b);
            |b| % 3 == 2 ==> |s| >= 4 && s[|s| - 1] == '=' && IsAlphabet(s[|s| - 2]) && Value(s[|s| - 2]) % 4 == 0
  {
    var v := Sextets(b);
    var g := EncodeGroups(b);
    var s := Encode(b);
    SextetsPadBits(b);
    assert s == g + Padding(|b|);
    if |b| % 3 == 1 {
      assert s[|s| - 3] == g[|g| - 1] == Digit(v[|v| - 1]);
      ValueOfDigit(v[|v| - 1]);
    } else if |b| % 3 == 2 {
      assert s[|s| - 2] == g[|g| - 1] == Digit(v[|v| - 1]);
      ValueOfDigit(v[|v| - 1]);
    }
  }

  /** A final group of two sextets: only the high two bits of the second count. */
  lemma LeftoverOfTwo(v0: Sextet, x: Sextet, y: Sextet)
    requires x / 16 == y / 16
    ensures Octets([v0, x]) == Octets([v0, y])
  {
    var vx: seq<Sextet> := [v0, x];
    var vy: seq<Sextet> := [v0, y];
    assert Octets(vx) == [FirstOctet(v0, x)];
    assert Octets(vy) == [FirstOctet(v0, y)];
  }

  /** A final group of three sextets: only the high four bits of the third count. */
  lemma LeftoverOfThree(v0: Sextet, v1: Sextet, x: Sextet, y: Sextet)
    requires x / 4 == y / 4
    ensures Octets([v0, v1, x]) == Octets([v0, v1, y])
  {
    var vx: seq<Sextet> := [v0, v1, x];
    var vy: seq<Sextet> := [v0, v1, y];
    assert Octets(vx) == [FirstOctet(v0, v1), SecondOctet(v1, x)];
    assert Octets(vy) == [FirstOctet(v0, v1), SecondOctet(v1, y)];
  }

  /** The leftover low bits of a final two- or three-sextet group do not reach the bytes. */
  lemma {:induction false} OctetsIgnoreLeftover(u: seq<Sextet>, x: Sextet, y: Sextet)
    requires (|u| % 4 == 1 && x / 16 == y / 16) || (|u| % 4 == 2 && x / 4 == y / 4)
    ensures Octets(u + [x]) == Octets(u + [y])
    decreases |u|
  {
    if |u| == 1 {
      assert u + [x] == [u[0], x] && u + [y] == [u[0], y];
      LeftoverOfTwo(u[0], x, y);
    } else if |u| == 2 {
      assert u + [x] == [u[0], u[1], x] && u + [y] == [u[0], u[1], y];
      LeftoverOfThree(u[0], u[1], x, y);
    } else {
      var ux, uy := u + [x], u + [y];
      assert ux[4..] == u[4..] + [x];
      assert uy[4..] == u[4..] + [y];
      assert ux[..4] == uy[..4];
      OctetsIgnoreLeftover(u[4..], x, y);
      OctetsFront(ux);
      OctetsFront(uy);
    }
  }

  /** Whitespace-free, `=`-free text of a valid length decodes group by group. */
  lemma AtobAlphabetText(s: string)
    requires AllAlphabet(s) && |s| % 4 != 1
    ensures Atob(s) == Success(FromBytes(DecodeGroups(s)))
  {
    assert forall i :: 0 <= i < |s| ==> !IsAsciiWhitespace(s[i]) by {
      forall i | 0 <= i < |s|
        ensures !IsAsciiWhitespace(s[i])
      {
        assert IsAlphabet(s[i]);
      }
    }
    assert RemoveWhitespace(s) == s;
    if |s| > 0 {
      assert IsAlphabet(s[|s| - 1]);
    }
    assert StripPadding(s) == s;
  }

  /**
   * `atob` discards the leftover bits of a final partial quantum: two
   * inputs that differ only in the low bits of their last character decode
   * alike (so `QR==` gives what `QQ==` gives).
   */
  lemma AtobIgnoresPadBits(g: string, c: char, d: char)
    requires AllAlphabet(g) && IsAlphabet(c) && IsAlphabet(d)
    ensures |g| % 4 == 1 && Value(c) / 16 == Value(d) / 16 ==> Atob(g + [c]) == Atob(g + [d])
    ensures |g| % 4 == 2 && Value(c) / 4 == Value(d) / 4 ==> Atob(g + [c]) == Atob(g + [d])
  {
    if (|g| % 4 == 1 && Value(c) / 16 == Value(d) / 16) || (|g| % 4 == 2 && Value(c) / 4 == Value(d) / 4) {
      AtobAppendChar(g, c);
      AtobAppendChar(g, d);
      OctetsIgnoreLeftover(Values(g), Value(c), Value(d));
    }
  }

  /** Alphabet text extended by one alphabet character decodes through the sextets of both. */
  lemma AtobAppendChar(g: string, c: char)
    requires AllAlphabet(g) && IsAlphabet(c) && (|g| % 4 == 1 || |g| % 4 == 2)
    ensures |Values(g) + [Value(c)]| % 4 != 1
    ensures Atob(g + [c]) == Success(FromBytes(Octets(Values(g) + [Value(c)])))
  {
    var gc := g + [c];
    assert AllAlphabet(gc) by {
      assert forall i :: 0 <= i < |g| ==> gc[i] == g[i];
    }
    AtobAlphabetText(gc);
    assert Values(gc) == Values(g) + [Value(c)];
  }
}

=== FILE: link.dfy ===
/**
 * The share link of the playground (src/App.js): the saved text goes through
 * `btoa`, then `encodeURIComponent`, and becomes the `content` query
 * parameter of the page's own address; on startup the `content` parameter of
 * the address the page was opened with is read back and given to `atob`.
 */
module ShareLink {
  import opened Results
  import opened Base64
  import opened PercentEncoding
  import opened FormUrlencoded

  /** The name of the query parameter that carries the saved text. */
  const CONTENT_PARAM: string := "content"

  /** A query token made only of RFC 3986 unreserved characters and `%XX` escapes. */
  predicate IsUnreservedToken(t: string)
    decreases |t|
  {
    if t == [] then true
    else if IsUnreserved(t[0]) then IsUnreservedToken(t[1..])
    else |t| >= 3 && t[0] == '%' && IsHexDigit(t[1]) && IsHexDigit(t[2]) && IsUnreservedToken(t[3..])
  }

  /** Text that `btoa` can have produced: alphabet characters and `=` only. */
  predicate IsBase64Text(s: string) {
    forall i :: 0 <= i < |s| ==> IsAlphabet(s[i]) || s[i] == '='
  }

  /** Such a token holds no character the query parser treats specially. */
  lemma {:induction false} TokenChars(t: string)
    requires IsUnreservedToken(t)
    ensures forall i :: 0 <= i < |t| ==> IsUnreserved(t[i]) || t[i] == '%' || IsHexDigit(t[i])
    ensures '&' !in t && '+' !in t && '=' !in t && '#' !in t && '?' !in t
    decreases |t|
  {
    if t != [] {
      if IsUnreserved(t[0]) {
        TokenChars(t[1..]);
        assert forall i :: 1 <= i < |t| ==> t[i] == t[1..][i - 1];
      } else {
        TokenChars(t[3..]);
        assert forall i :: 3 <= i < |t| ==> t[i] == t[3..][i - 3];
      }
    }
  }

  /** One Base64 character, percent-encoded, extends a token to a token. */
  lemma EncodeBase64Char(c: char, rest: string)
    requires IsAlphabet(c) || c == '='
    requires IsUnreservedToken(rest)
    ensures IsUnreservedToken(EncodeChar(c) + rest)
  {
    var t := EncodeChar(c) + rest;
    if IsComponentSafe(c) {
      assert t[1..] == rest;
    } else {
      assert Utf8(c) == [c as int];
      assert |EncodeChar(c)| == 3;
      assert t[3..] == rest;
    }
  }

  /** The escape of one character of Base64 text: `+`, `/` and `=` are escaped, letters and digits kept. */
  function Base64CharToken(c: char): string {
    if c == '+' then "%2B" else if c == '/' then "%2F" else if c == '=' then "%3D" else [c]
  }

  /** The token of Base64 text, written character by character. */
  function Base64Token(s: string): string {
    if s == [] then "" else Base64CharToken(s[0]) + Base64Token(s[1..])
  }

  /** `encodeURIComponent` on one Base64 character is that character's escape. */
  lemma EncodeBase64CharToken(c: char)
    requires IsAlphabet(c) || c == '='
    ensures EncodeChar(c) == Base64CharToken(c)
  {
    if c == '+' || c == '/' || c == '=' {
      assert Utf8(c) == [c as int];
    }
  }

  /**
   * `encodeURIComponent` on Base64 text is exactly the character-by-character
   * token: letters and digits kept, `+`, `/` and `=` as `%2B`, `%2F` and `%3D`.
   */
  lemma {:induction false} EncodeBase64Text(s: string)
    requires IsBase64Text(s)
    ensures EncodeURIComponent(s) == Base64Token(s)
    decreases |s|
  {
    if s != [] {
      assert IsBase64Text(s[1..]) by {
        assert forall i :: 0 <= i < |s[1..]| ==> s[1..][i] == s[i + 1];
      }
      EncodeBase64Text(s[1..]);
      EncodeBase64CharToken(s[0]);
    }
  }

  /** Percent-encoding Base64 text gives an unreserved token. */
  lemma {:induction false} EncodeBase64Token(s: string)
    requires IsBase64Text(s)
    ensures IsUnreservedToken(EncodeURIComponent(s))
    decreases |s|
  {
    if s != [] {
      assert IsBase64Text(s[1..]) by {
        assert forall i :: 0 <= i < |s[1..]| ==> s[1..][i] == s[i + 1];
      }
      EncodeBase64Token(s[1..]);
      EncodeBase64Char(s[0], EncodeURIComponent(s[1..]));
    }
  }

  /** The value of the `content` parameter: `encodeURIComponent(btoa(savedCode))`. */
  function ShareToken(savedCode: string): (r: Result<string, DomError>)
    ensures r.Success? <==> IsLatin1(savedCode)
    ensures r.Success? ==> IsUnreservedToken(r.value)
  {
    match Btoa(savedCode)
    case Failure(e) => Failure(e)
    case Success(b64) =>
      EncodeBase64Token(b64);
      Success(EncodeURIComponent(b64))
  }

  /** The `generatedLink` getter: `origin + pathname + "?content=" + token`. */
  function GeneratedLink(savedCode: string, origin: string, pathname: string): (r: Result<string, DomError>)
    ensures r.Success? <==> IsLatin1(savedCode)
    ensures r.Success? ==> |origin + pathname| < |r.value| && r.value[..|origin + pathname|] == origin + pathname
  {
    match ShareToken(savedCode)
    case Failure(e) => Failure(e)
    case Success(token) => Success(origin + pathname + "?" + CONTENT_PARAM + "=" + token)
  }

  /**
   * `_getContent`: null when the parameter is absent, the empty text when it
   * is empty, and otherwise what `atob` makes of it, throwing when `atob`
   * throws (there is no fallback around the call).
   */
  function GetContent(href: string): (r: Result<Option<string>, DomError>)
    ensures r.Success? && r.value.Some? ==> IsLatin1(r.value.value)
    ensures SearchParam(href, CONTENT_PARAM).None? <==> r == Success(None)
    ensures SearchParam(href, CONTENT_PARAM) == Some("") ==> r == Success(Some(""))
    ensures r.Failure? <==> SearchParam(href, CONTENT_PARAM).Some? && SearchParam(href, CONTENT_PARAM).value != ""
                            && Atob(SearchParam(href, CONTENT_PARAM).value).Failure?
    ensures r.Failure? ==> r.error == Atob(SearchParam(href, CONTENT_PARAM).value).error
    ensures SearchParam(href, CONTENT_PARAM).Some? && Atob(SearchParam(href, CONTENT_PARAM).value).Success?
            ==> r == Success(Some(Atob(SearchParam(href, CONTENT_PARAM).value).value))
  {
    match SearchParam(href, CONTENT_PARAM)
    case None => Success(None)
    case Some(content) =>
      if content == "" then Success(Some(""))
      else
        match Atob(content)
        case Failure(e) => Failure(e)
        case Success(text) => Success(Some(text))
  }

  // ---------------------------------------------------------------- properties

  /** ReplacePlus leaves text without `+` alone. */
  lemma ReplacePlusIdentity(s: string)
    requires '+' !in s
    ensures ReplacePlus(s) == s
  {
  }

  /** ASCII text without `+` or `%` decodes to itself. */
  lemma DecodePlainAscii(s: string)
    requires IsAscii(s) && '+' !in s && '%' !in s
    ensures DecodeComponent(s) == s
  {
    ReplacePlusIdentity(s);
    Utf8EncodeAscii(s);
    Utf8DecodeAscii(s);
  }

  /** The parameter name decodes to itself. */
  lemma DecodeContentParam()
    ensures DecodeComponent(CONTENT_PARAM) == CONTENT_PARAM
  {
    var n := CONTENT_PARAM;
    assert forall i :: 0 <= i < |n| ==> 'a' <= n[i] <= 'z';
    DecodePlainAscii(n);
  }

  /** The token decodes to the Base64 text it was made from. */
  lemma DecodeToken(b64: string)
    requires IsBase64Text(b64)
    ensures DecodeComponent(EncodeURIComponent(b64)) == b64
  {
    var t := EncodeURIComponent(b64);
    assert '+' !in t by {
      EncodeBase64Token(b64);
      TokenChars(t);
    }
    ReplacePlusIdentity(t);
    assert IsAscii(b64) by {
      forall i | 0 <= i < |b64|
        ensures b64[i] as int < 128
      {
        assert IsAlphabet(b64[i]) || b64[i] == '=';
      }
    }
    PercentDecodeEncodeAscii(b64);
    Utf8DecodeAscii(b64);
    assert DecodeComponent(t) == Utf8DecodeLossy(PercentDecode(t));
  }

  /** A query of the single piece `content=<token>` parses to that one pair. */
  lemma ParseContentQuery(token: string)
    requires '&' !in token
    ensures Parse(CONTENT_PARAM + "=" + token) == [Pair(DecodeComponent(CONTENT_PARAM), DecodeComponent(token))]
  {
    var q := CONTENT_PARAM + "=" + token;
    assert '&' !in q by {
      assert forall i :: 0 <= i < |q| ==> q[i] == if i < 8 then q[..8][i] else token[i - 8];
    }
    assert Split(q, '&') == [q];
    assert q[7] == '=';
    assert IndexOf(q, '=') == 7;
    assert q[..7] == CONTENT_PARAM;
    assert q[8..] == token;
  }

  /** A URL whose query is `content=<token>` has the decoded token as its `content` parameter. */
  lemma SearchContent(href: string, token: string)
    requires QueryOf(href) == CONTENT_PARAM + "=" + token && '&' !in token
    ensures SearchParam(href, CONTENT_PARAM) == Some(DecodeComponent(token))
  {
    ParseContentQuery(token);
    DecodeContentParam();
  }

  /** The form of the link: the page address, `?content=` and the token. */
  lemma LinkForm(savedCode: string, origin: string, pathname: string)
    requires IsLatin1(savedCode)
    ensures GeneratedLink(savedCode, origin, pathname).Success?
    ensures GeneratedLink(savedCode, origin, pathname).value
            == origin + pathname + "?" + (CONTENT_PARAM + "=" + ShareToken(savedCode).value)
  {
  }

  /** `content=` followed by a token holds no `#`. */
  lemma ContentQueryHasNoFragment(token: string)
    requires '#' !in token
    ensures '#' !in CONTENT_PARAM + "=" + token
  {
    var rest := CONTENT_PARAM + "=" + token;
    assert forall i :: 0 <= i < |rest| ==> rest[i] == if i < 8 then rest[..8][i] else token[i - 8];
  }

  /** The query of a generated link is `content=<token>`. */
  lemma LinkQuery(savedCode: string, origin: string, pathname: string)
    requires IsLatin1(savedCode)
    requires '?' !in origin + pathname && '#' !in origin + pathname
    ensures GeneratedLink(savedCode, origin, pathname).Success?
    ensures QueryOf(GeneratedLink(savedCode, origin, pathname).value) == CONTENT_PARAM + "=" + ShareToken(savedCode).value
  {
    var token := ShareToken(savedCode).value;
    TokenChars(token);
    ContentQueryHasNoFragment(token);
    LinkForm(savedCode, origin, pathname);
    QueryOfAppend(origin + pathname, CONTENT_PARAM + "=" + token);
  }

  /** The link carries the Base64 text in its `content` parameter, intact. */
  lemma LinkCarriesBase64(savedCode: string, origin: string, pathname: string)
    requires IsLatin1(savedCode)
    requires '?' !in origin + pathname && '#' !in origin + pathname
    ensures GeneratedLink(savedCode, origin, pathname).Success?
    ensures SearchParam(GeneratedLink(savedCode, origin, pathname).value, CONTENT_PARAM) == Some(Btoa(savedCode).value)
  {
    var b64 := Btoa(savedCode).value;
    var token := ShareToken(savedCode).value;
    assert token == EncodeURIComponent(b64);
    TokenChars(token);
    LinkQuery(savedCode, origin, pathname);
    SearchContent(GeneratedLink(savedCode, origin, pathname).value, token);
    DecodeToken(b64);
  }

  /**
   * The share-link round trip: opening the link generated from a binary
   * string reads that same string back out of it.
   */
  lemma ShareLinkRoundTrip(savedCode: string, origin: string, pathname: string)
    requires IsLatin1(savedCode)
    requires '?' !in origin + pathname && '#' !in origin + pathname
    ensures GeneratedLink(savedCode, origin, pathname).Success?
    ensures GetContent(GeneratedLink(savedCode, origin, pathname).value) == Success(Some(savedCode))
  {
    LinkCarriesBase64(savedCode, origin, pathname);
    AtobBtoa(savedCode);
    var b64 := Btoa(savedCode).value;
    if savedCode != "" {
      assert b64 != "";
    } else {
      assert b64 == "";
    }
  }
}

=== FILE: percent.dfy ===
/**
 * Percent-encoding (sections 2.1 and 2.3 of RFC 3986) as ECMAScript's
 * `encodeURIComponent` applies it: every character outside a small safe set
 * becomes the `%XX` escapes of its UTF-8 bytes (RFC 3629). Its partner is the
 * percent-decoding of section 1.3 of the WHATWG URL Standard, which turns each
 * `%` followed by two hexadecimal digits back into one byte and leaves every
 * other byte alone.
 */
module PercentEncoding {
  import opened Base64

  /**
   * The characters `encodeURIComponent` leaves as they are: ASCII letters and
   * digits and `- _ . ! ~ * ' ( )` (ECMAScript's uriUnreserved set).
   */
  predicate IsComponentSafe(c: char) {
    || 'A' <= c <= 'Z' || 'a' <= c <= 'z' || '0' <= c <= '9'
    || c == '-' || c == '_' || c == '.' || c == '!' || c == '~'
    || c == '*' || c == '\'' || c == '(' || c == ')'
  }

  /** The unreserved characters of section 2.3 of RFC 3986. */
  predicate IsUnreserved(c: char) {
    'A' <= c <= 'Z' || 'a' <= c <= 'z' || '0' <= c <= '9' || c == '-' || c == '.' || c == '_' || c == '~'
  }

  predicate IsHexDigit(c: char) {
    '0' <= c <= '9' || 'A' <= c <= 'F' || 'a' <= c <= 'f'
  }

  /** The value of a hexadecimal digit of either case. */
  function HexValue(c: char): (n: int)
    requires IsHexDigit(c)
    ensures 0 <= n < 16
  {
    if '0' <= c <= '9' then c as int - '0' as int
    else if 'A' <= c <= 'F' then c as int - 'A' as int + 10
    else c as int - 'a' as int + 10
  }

  /** The upper-case hexadecimal digit for a value, as section 2.1 of RFC 3986 recommends. */
  function HexDigit(n: int): (c: char)
    requires 0 <= n < 16
    ensures IsHexDigit(c) && 'a' > c
  {
    if n < 10 then ('0' as int + n) as char else ('A' as int + (n - 10)) as char
  }

  lemma HexValueOfDigit(n: int)
    requires 0 <= n < 16
    ensures HexValue(HexDigit(n)) == n
  {
  }

  // ---------------------------------------------------------------- UTF-8

  /** A UTF-8 continuation byte, `10xxxxxx`, carrying six bits of the code point. */
  predicate IsContinuation(x: Byte) {
    0x80 <= x < 0xC0
  }

  /**
   * The UTF-8 encoding of one code point (section 3 of RFC 3629): the
   * shortest of the four forms, a lead byte announcing the length followed
   * by continuation bytes, the code point's bits read from left to right.
   */
  function Utf8(c: char): (b: seq<Byte>)
    ensures 1 <= |b| <= 4
    ensures c as int < 128 <==> b == [c as int]
    ensures |b| == 2 <==> 0x80 <= c as int < 0x800
    ensures |b| == 3 <==> 0x800 <= c as int < 0x1_0000
    ensures |b| == 4 <==> 0x1_0000 <= c as int
    ensures |b| == 2 ==> 0xC0 <= b[0] < 0xE0 && IsContinuation(b[1])
                         && (b[0] as int - 0xC0) * 64 + (b[1] as int - 0x80) == c as int
    ensures |b| == 3 ==> 0xE0 <= b[0] < 0xF0 && IsContinuation(b[1]) && IsContinuation(b[2])
                         && (b[0] as int - 0xE0) * 4096 + (b[1] as int - 0x80) * 64 + (b[2] as int - 0x80) == c as int
    ensures |b| == 4 ==> 0xF0 <= b[0] < 0xF8 && IsContinuation(b[1]) && IsContinuation(b[2]) && IsContinuation(b[3])
                         && (b[0] as int - 0xF0) * 262144 + (b[1] as int - 0x80) * 4096 + (b[2] as int - 0x80) * 64 + (b[3] as int - 0x80) == c as int
  {
    var n := c as int;
    if n < 0x80 then [n]
    else if n < 0x800 then Utf8Two(n)
    else if n < 0x1_0000 then Utf8Three(n)
    else Utf8Four(n)
  }

  /** The continuation byte carrying the low six bits of `n`. */
  function Continuation(n: nat): (x: Byte)
    ensures IsContinuation(x) && x as int - 0x80 == n % 64
  {
    0x80 + n % 64
  }

  /** The two-byte form, `110xxxxx 10xxxxxx`, for code points of 8 to 11 bits. */
  function Utf8Two(n: int): (b: seq<Byte>)
    requires 0x80 <= n < 0x800
    ensures |b| == 2 && 0xC0 <= b[0] < 0xE0 && IsContinuation(b[1])
    ensures (b[0] as int - 0xC0) * 64 + (b[1] as int - 0x80) == n
  {
    var b0: Byte := 0xC0 + n / 64;
    [b0, Continuation(n)]
  }

  /** The three-byte form, `1110xxxx` and two continuation bytes, for code points of 12 to 16 bits. */
  function Utf8Three(n: int): (b: seq<Byte>)
    requires 0x800 <= n < 0x1_0000
    ensures |b| == 3 && 0xE0 <= b[0] < 0xF0 && IsContinuation(b[1]) && IsContinuation(b[2])
    ensures (b[0] as int - 0xE0) * 4096 + (b[1] as int - 0x80) * 64 + (b[2] as int - 0x80) == n
  {
    var q := n / 64;
    assert n == q * 64 + n % 64;
    assert q == q / 64 * 64 + q % 64;
    var b0: Byte := 0xE0 + q / 64;
    [b0, Continuation(q), Continuation(n)]
  }

  /** The four-byte form, `11110xxx` and three continuation bytes, for code points above 16 bits. */
  function Utf8Four(n: int): (b: seq<Byte>)
    requires 0x1_0000 <= n <= 0x10_FFFF
    ensures |b| == 4 && 0xF0 <= b[0] < 0xF8
    ensures IsContinuation(b[1]) && IsContinuation(b[2]) && IsContinuation(b[3])
    ensures (b[0] as int - 0xF0) * 262144 + (b[1] as int - 0x80) * 4096 + (b[2] as int - 0x80) * 64 + (b[3] as int - 0x80) == n
  {
    var q := n / 64;
    var p := q / 64;
    assert n == q * 64 + n % 64;
    assert q == p * 64 + q % 64;
    assert p == p / 64 * 64 + p % 64;
    var b0: Byte := 0xF0 + p / 64;
    [b0, Continuation(p), Continuation(q), Continuation(n)]
  }

  /** The UTF-8 encoding of a string: its characters' encodings, in order. */
  function Utf8Encode(s: string): (b: seq<Byte>)
    ensures |b| >= |s|
  {
    if s == [] then [] else Utf8(s[0]) + Utf8Encode(s[1..])
  }

  lemma {:induction false} Utf8EncodeAppend(a: string, b: string)
    ensures Utf8Encode(a + b) == Utf8Encode(a) + Utf8Encode(b)
    decreases |a|
  {
    if a == [] {
      assert a + b == b;
    } else {
      assert (a + b)[0] == a[0];
      assert (a + b)[1..] == a[1..] + b;
      Utf8EncodeAppend(a[1..], b);
      assert Utf8Encode(a + b) == Utf8(a[0]) + Utf8Encode(a[1..] + b);
    }
  }

  /** On ASCII text UTF-8 is the identity: one byte per character, same value. */
  lemma {:induction false} Utf8EncodeAscii(s: string)
    requires IsAscii(s)
    ensures IsLatin1(s)
    ensures Utf8Encode(s) == ToBytes(s)
    decreases |s|
  {
    if s != [] {
      Utf8EncodeAscii(s[1..]);
    }
  }

  // ---------------------------------------------------------------- encoding

  /** `%` and two upper-case hexadecimal digits whose value is the byte. */
  predicate IsEscapeOf(e: string, x: Byte) {
    |e| == 3 && e[0] == '%' && IsHexDigit(e[1]) && IsHexDigit(e[2]) && 'a' > e[1] && 'a' > e[2]
    && HexValue(e[1]) * 16 + HexValue(e[2]) == x
  }

  /** Each byte as `%` and two upper-case hexadecimal digits. */
  function Escape(b: seq<Byte>): (s: string)
    ensures |s| == 3 * |b|
    ensures IsAscii(s) && IsLatin1(s)
  {
    if b == [] then "" else ['%', HexDigit(b[0] / 16), HexDigit(b[0] % 16)] + Escape(b[1..])
  }

  /** The escape of every byte, read back at its place, is `%` and two upper-case digits of that byte. */
  lemma {:induction false} EscapeDigits(b: seq<Byte>)
    ensures forall i :: 0 <= i < |b| ==> IsEscapeOf(Escape(b)[3 * i..3 * i + 3], b[i])
    decreases |b|
  {
    if b != [] {
      var h, l := HexDigit(b[0] / 16), HexDigit(b[0] % 16);
      var s, t := Escape(b), Escape(b[1..]);
      assert s == ['%', h, l] + t;
      HexValueOfDigit(b[0] / 16);
      HexValueOfDigit(b[0] % 16);
      EscapeDigits(b[1..]);
      forall i | 0 <= i < |b|
        ensures IsEscapeOf(s[3 * i..3 * i + 3], b[i])
      {
        if i == 0 {
          assert s[0..3] == ['%', h, l];
        } else {
          assert s[3 * i..3 * i + 3] == t[3 * (i - 1)..3 * (i - 1) + 3];
          assert b[i] == b[1..][i - 1];
        }
      }
    }
  }

  /** What `encodeURIComponent` makes of one character. */
  function EncodeChar(c: char): (s: string)
    ensures IsAscii(s) && s != ""
    ensures IsComponentSafe(c) ==> s == [c]
    ensures !IsComponentSafe(c) ==> s[0] == '%'
  {
    if IsComponentSafe(c) then [c] else Escape(Utf8(c))
  }

  /** `encodeURIComponent`: the output is ASCII, whatever the input. */
  function EncodeURIComponent(s: string): (r: string)
    ensures IsAscii(r)
    ensures |r| >= |s|
    ensures (forall i :: 0 <= i < |s| ==> IsComponentSafe(s[i])) ==> r == s
  {
    if s == [] then "" else EncodeChar(s[0]) + EncodeURIComponent(s[1..])
  }

  // ---------------------------------------------------------------- decoding

  predicate IsHexByte(x: Byte) {
    IsHexDigit(x as char)
  }

  /**
   * Percent-decoding of a byte sequence: `%` and two hexadecimal digits make
   * one byte; any other byte, including a `%` not followed by two digits, is
   * kept.
   */
  function PercentDecodeBytes(b: seq<Byte>): (r: seq<Byte>)
    ensures |r| <= |b|
  {
    if b == [] then []
    else if b[0] == 37 && |b| >= 3 && IsHexByte(b[1]) && IsHexByte(b[2]) then
      var x: Byte := HexValue(b[1] as char) * 16 + HexValue(b[2] as char);
      [x] + PercentDecodeBytes(b[3..])
    else [b[0]] + PercentDecodeBytes(b[1..])
  }

  /** Percent-decoding of a string: of the UTF-8 encoding of the string. */
  function PercentDecode(s: string): (b: seq<Byte>)
    ensures '%' !in s ==> b == Utf8Encode(s)
  {
    Utf8EncodeNoPercent(s);
    PercentDecodeUnescaped(Utf8Encode(s));
    PercentDecodeBytes(Utf8Encode(s))
  }

  /** Bytes without a `%` have nothing to decode. */
  lemma {:induction false} PercentDecodeUnescaped(b: seq<Byte>)
    ensures 37 !in b ==> PercentDecodeBytes(b) == b
    decreases |b|
  {
    if b != [] && 37 !in b {
      assert 37 !in b[1..] by { assert forall x :: x in b[1..] ==> x in b; }
      PercentDecodeUnescaped(b[1..]);
    }
  }

  /** UTF-8 never produces the byte of `%` except for `%` itself. */
  lemma {:induction false} Utf8EncodeNoPercent(s: string)
    ensures '%' !in s ==> 37 !in Utf8Encode(s)
    decreases |s|
  {
    if s != [] && '%' !in s {
      assert s[0] != '%';
      assert '%' !in s[1..] by {
        forall i | 0 <= i < |s[1..]|
          ensures s[1..][i] != '%'
        {
          assert s[1..][i] == s[i + 1];
        }
      }
      Utf8EncodeNoPercent(s[1..]);
    }
  }

  // ---------------------------------------------------------------- round trip

  /** One escape decodes to its byte, ahead of whatever follows. */
  lemma DecodeOneEscape(x: Byte, tail: seq<Byte>)
    ensures PercentDecodeBytes([37, HexDigit(x / 16) as int, HexDigit(x % 16) as int] + tail) == [x] + PercentDecodeBytes(tail)
  {
    var h, l := HexDigit(x / 16), HexDigit(x % 16);
    HexValueOfDigit(x / 16);
    HexValueOfDigit(x % 16);
    var all := [37, h as int, l as int] + tail;
    assert all[3..] == tail;
    assert all[1] as char == h && all[2] as char == l;
    assert IsHexByte(all[1]) && IsHexByte(all[2]);
  }

  /**
   * An escape decodes to one byte whatever the case of its hexadecimal
   * digits: `%3d` and `%3D` both give `=`.
   */
  lemma PercentDecodeEscape(h: char, l: char, rest: seq<Byte>)
    requires IsHexDigit(h) && IsHexDigit(l)
    ensures PercentDecodeBytes([37, h as int, l as int] + rest) == [HexValue(h) * 16 + HexValue(l)] + PercentDecodeBytes(rest)
  {
    var all: seq<Byte> := [37, h as int, l as int] + rest;
    assert |all| >= 3 && all[0] == 37;
    assert all[1] as char == h && all[2] as char == l;
    assert IsHexByte(all[1]) && IsHexByte(all[2]);
    assert all[3..] == rest;
    var x: Byte := HexValue(h) * 16 + HexValue(l);
    assert PercentDecodeBytes(all) == [x] + PercentDecodeBytes(all[3..]);
  }

  /** A byte that does not start an escape, a `%` without two hexadecimal digits included, is kept. */
  lemma PercentDecodeKeeps(x: Byte, rest: seq<Byte>)
    requires x != 37 || |rest| < 2 || !IsHexByte(rest[0]) || !IsHexByte(rest[1])
    ensures PercentDecodeBytes([x] + rest) == [x] + PercentDecodeBytes(rest)
  {
    assert ([x] + rest)[1..] == rest;
  }

  /** The bytes of an escape sequence: those of the first escape, then those of the rest. */
  lemma EscapeBytesFront(b: seq<Byte>)
    requires b != []
    ensures ToBytes(Escape(b)) == [37, HexDigit(b[0] / 16) as int, HexDigit(b[0] % 16) as int] + ToBytes(Escape(b[1..]))
  {
    var h, l := HexDigit(b[0] / 16), HexDigit(b[0] % 16);
    var head: string := ['%', h, l];
    assert Escape(b) == head + Escape(b[1..]);
    ToBytesAppend(head, Escape(b[1..]));
    var front := ToBytes(head);
    assert |front| == 3 && front[0] == 37 && front[1] == h as int && front[2] == l as int;
    assert front == [37, h as int, l as int];
  }

  /** The first escape of several decodes to the first byte. */
  lemma DecodeEscapeFront(b: seq<Byte>, rest: seq<Byte>)
    requires b != []
    ensures PercentDecodeBytes(ToBytes(Escape(b)) + rest)
            == [b[0]] + PercentDecodeBytes(ToBytes(Escape(b[1..])) + rest)
  {
    var head: seq<Byte> := [37, HexDigit(b[0] / 16) as int, HexDigit(b[0] % 16) as int];
    var escaped, tail := ToBytes(Escape(b[1..])), ToBytes(Escape(b[1..])) + rest;
    EscapeBytesFront(b);
    assert (head + escaped) + rest == head + tail;
    DecodeOneEscape(b[0], tail);
  }

  /** Decoding escapes gives back the escaped bytes, ahead of whatever follows. */
  lemma {:induction false} DecodeEscape(b: seq<Byte>, rest: seq<Byte>)
    ensures PercentDecodeBytes(ToBytes(Escape(b)) + rest) == b + PercentDecodeBytes(rest)
    decreases |b|
  {
    if b == [] {
      assert ToBytes(Escape(b)) + rest == rest;
    } else {
      DecodeEscapeFront(b, rest);
      DecodeEscape(b[1..], rest);
      assert b == [b[0]] + b[1..];
    }
  }

  /** One encoded character decodes to its UTF-8 bytes, ahead of whatever follows. */
  lemma DecodeEncodeChar(c: char, rest: seq<Byte>)
    ensures IsLatin1(EncodeChar(c))
    ensures PercentDecodeBytes(ToBytes(EncodeChar(c)) + rest) == Utf8(c) + PercentDecodeBytes(rest)
  {
    if IsComponentSafe(c) {
      assert ([c as int] + rest)[1..] == rest;
    } else {
      DecodeEscape(Utf8(c), rest);
    }
  }

  /**
   * The percent-encoding round trip: decoding what `encodeURIComponent`
   * produced gives the UTF-8 bytes of the original text, for every text.
   */
  lemma {:induction false} PercentDecodeEncode(s: string)
    ensures PercentDecode(EncodeURIComponent(s)) == Utf8Encode(s)
    decreases |s|
  {
    var r := EncodeURIComponent(s);
    Utf8EncodeAscii(r);
    if s != [] {
      var e, tail := EncodeChar(s[0]), EncodeURIComponent(s[1..]);
      Utf8EncodeAscii(e);
      Utf8EncodeAscii(tail);
      Utf8EncodeAppend(e, tail);
      DecodeEncodeChar(s[0], ToBytes(tail));
      PercentDecodeEncode(s[1..]);
    }
  }

  /** On ASCII text, decoding the encoding gives back the characters' codes. */
  lemma PercentDecodeEncodeAscii(s: string)
    requires IsAscii(s)
    ensures IsLatin1(s)
    ensures PercentDecode(EncodeURIComponent(s)) == ToBytes(s)
  {
    PercentDecodeEncode(s);
    Utf8EncodeAscii(s);
  }
}

=== FILE: playground.dfy ===
/**
 * The document state of the playground's `App` component (src/App.js): the
 * working text `code` shown in the editor and the saved text `savedCode` fed
 * to the live preview and to the share link, with the transitions the
 * component performs on them and the clean/dirty branch of its rendering.
 */
module Playground {
  import opened Results
  import opened Base64
  import opened PercentEncoding
  import opened FormUrlencoded
  import opened ShareLink

  /** The text a page opened without a usable `content` parameter starts with. */
  const DEFAULT_CONTENT: string := "<div>\n  <h1>Sample code</h1>\n</div>"

  /** The component state: working text and saved text. */
  datatype Document = Document(code: string, savedCode: string)

  /** `isUnsaved`: the working text differs from the saved text. */
  predicate IsUnsaved(d: Document) {
    d.code != d.savedCode
  }

  /** A document is unsaved exactly when saving it would change something. */
  lemma UnsavedIffSaveChanges(d: Document)
    ensures IsUnsaved(d) <==> RunSave(d) != d
  {
  }

  /**
   * The constructor: `_getContent() || DEFAULT_CONTENT` seeds both texts, so
   * an absent or empty parameter, and one that decodes to the empty text,
   * all give the default. A parameter `atob` rejects makes it throw.
   */
  function Startup(href: string): (r: Result<Document, DomError>)
    ensures r.Success? ==> !IsUnsaved(r.value) && r.value.code != ""
    ensures r.Failure? <==> GetContent(href).Failure?
    ensures SearchParam(href, CONTENT_PARAM).None? ==> r == Success(Document(DEFAULT_CONTENT, DEFAULT_CONTENT))
    ensures SearchParam(href, CONTENT_PARAM) == Some("") ==> r == Success(Document(DEFAULT_CONTENT, DEFAULT_CONTENT))
    ensures SearchParam(href, CONTENT_PARAM).Some? && Atob(SearchParam(href, CONTENT_PARAM).value) == Success("")
            ==> r == Success(Document(DEFAULT_CONTENT, DEFAULT_CONTENT))
    ensures SearchParam(href, CONTENT_PARAM).Some? && Atob(SearchParam(href, CONTENT_PARAM).value).Success?
            && Atob(SearchParam(href, CONTENT_PARAM).value).value != ""
            ==> r == Success(Document(Atob(SearchParam(href, CONTENT_PARAM).value).value,
                                      Atob(SearchParam(href, CONTENT_PARAM).value).value))
  {
    match GetContent(href)
    case Failure(e) => Failure(e)
    case Success(content) =>
      var initial := if content.Some? && content.value != "" then content.value else DEFAULT_CONTENT;
      Success(Document(initial, initial))
  }

  /** `onChange`: the editor's new text replaces the working text only. */
  function OnChange(d: Document, newValue: string): (d': Document)
    ensures d'.code == newValue && d'.savedCode == d.savedCode
    ensures IsUnsaved(d') <==> newValue != d.savedCode
  {
    d.(code := newValue)
  }

  /** `runSave`: the working text becomes the saved text. */
  function RunSave(d: Document): (d': Document)
    ensures d'.code == d.code && d'.savedCode == d.code
    ensures !IsUnsaved(d')
    ensures !IsUnsaved(d) ==> d' == d
  {
    d.(savedCode := d.code)
  }

  /** The `generatedLink` getter, which reads only the saved text. */
  function DocumentLink(d: Document, origin: string, pathname: string): (r: Result<string, DomError>)
    ensures r.Success? <==> IsLatin1(d.savedCode)
  {
    GeneratedLink(d.savedCode, origin, pathname)
  }

  // ---------------------------------------------------------------- rendering

  /** What the paragraph above the editor holds: the example link or the Save button. */
  datatype Control = ExampleLink(href: string) | SaveButton

  /** The parts of the rendered page the state decides. */
  datatype View = View(control: Control, editorValue: string, previewCode: string)

  /**
   * `render`: the link when clean, the button when dirty; the editor shows
   * the working text and the preview receives the saved text. The link is
   * computed only when clean, and throws when `btoa` does.
   */
  function Render(d: Document, origin: string, pathname: string): (r: Result<View, DomError>)
    ensures r.Success? ==> r.value.editorValue == d.code && r.value.previewCode == d.savedCode
    ensures r.Success? ==> (r.value.control.SaveButton? <==> IsUnsaved(d))
    ensures r.Failure? <==> !IsUnsaved(d) && !IsLatin1(d.savedCode)
    ensures r.Success? && !IsUnsaved(d) ==> r.value.control == ExampleLink(DocumentLink(d, origin, pathname).value)
  {
    if IsUnsaved(d) then Success(View(SaveButton, d.code, d.savedCode))
    else
      match DocumentLink(d, origin, pathname)
      case Failure(e) => Failure(e)
      case Success(link) => Success(View(ExampleLink(link), d.code, d.savedCode))
  }

  // ---------------------------------------------------------------- sessions

  /** A user event: an edit in the editor, or a save (the button or Ctrl/Cmd+S). */
  datatype Event = Edit(text: string) | Save

  /**
   * One event: an edit replaces the working text, a save makes it the saved
   * text. Afterwards the document is dirty exactly when the event was an
   * edit to a text other than the saved one.
   */
  function Step(d: Document, e: Event): (d': Document)
    ensures e.Edit? ==> d' == Document(e.text, d.savedCode)
    ensures e.Save? ==> d' == Document(d.code, d.code)
    ensures IsUnsaved(d') <==> e.Edit? && e.text != d.savedCode
  {
    match e
    case Edit(t) => OnChange(d, t)
    case Save => RunSave(d)
  }

  /** The document after a sequence of events, handled one at a time in order. */
  function Run(d: Document, events: seq<Event>): (r: Document)
    ensures (forall i :: 0 <= i < |events| ==> events[i].Edit?) ==> r.savedCode == d.savedCode
    ensures (forall i :: 0 <= i < |events| ==> events[i].Save?) ==> r == if events == [] then d else RunSave(d)
    decreases |events|
  {
    if events == [] then d else Run(Step(d, events[0]), events[1..])
  }

  /** The working text after some events: the last edit, or the initial text. */
  function CodeAfter(code: string, events: seq<Event>): string
    decreases |events|
  {
    if events == [] then code
    else if events[|events| - 1].Edit? then events[|events| - 1].text
    else CodeAfter(code, events[..|events| - 1])
  }

  /** The saved text after some events: the working text at the last save, or the initial saved text. */
  function SavedAfter(d: Document, events: seq<Event>): string
    decreases |events|
  {
    if events == [] then d.savedCode
    else if events[|events| - 1].Save? then CodeAfter(d.code, events[..|events| - 1])
    else SavedAfter(d, events[..|events| - 1])
  }

  /** Handling one more event is one more step. */
  lemma {:induction false} RunSnoc(d: Document, events: seq<Event>, e: Event)
    ensures Run(d, events + [e]) == Step(Run(d, events), e)
    decreases |events|
  {
    if events != [] {
      assert (events + [e])[1..] == events[1..] + [e];
      RunSnoc(Step(d, events[0]), events[1..], e);
    }
  }

  /**
   * The state after any session: the working text is the last edit and the
   * saved text is the working text as it stood at the last save.
   */
  lemma {:induction false} RunHistory(d: Document, events: seq<Event>)
    ensures Run(d, events) == Document(CodeAfter(d.code, events), SavedAfter(d, events))
    decreases |events|
  {
    if events != [] {
      var init := events[..|events| - 1];
      var e := events[|events| - 1];
      assert events == init + [e];
      RunHistory(d, init);
      RunSnoc(d, init, e);
    }
  }

  /** Edits alone never reach the preview or the link: the saved text stays. */
  lemma {:induction false} EditsKeepSaved(d: Document, events: seq<Event>)
    requires forall i :: 0 <= i < |events| ==> events[i].Edit?
    ensures Run(d, events).savedCode == d.savedCode
    decreases |events|
  {
    RunHistory(d, events);
    SavedAfterEdits(d, events);
  }

  lemma {:induction false} SavedAfterEdits(d: Document, events: seq<Event>)
    requires forall i :: 0 <= i < |events| ==> events[i].Edit?
    ensures SavedAfter(d, events) == d.savedCode
    decreases |events|
  {
    if events != [] {
      SavedAfterEdits(d, events[..|events| - 1]);
    }
  }

  // ---------------------------------------------------------------- properties

  /** Saving twice without an edit in between changes nothing the second time. */
  lemma SaveIdempotent(d: Document)
    ensures RunSave(RunSave(d)) == RunSave(d)
  {
  }

  /** The link is the same before and after any edit. */
  lemma LinkIgnoresEdits(d: Document, newValue: string, origin: string, pathname: string)
    ensures DocumentLink(OnChange(d, newValue), origin, pathname) == DocumentLink(d, origin, pathname)
  {
  }

  /** Exactly one of the link and the button is shown; the preview is always the saved text. */
  lemma ExactlyOneControl(d: Document, origin: string, pathname: string)
    requires IsLatin1(d.savedCode)
    ensures Render(d, origin, pathname).Success?
    ensures Render(d, origin, pathname).value.control.ExampleLink? <==> !IsUnsaved(d)
    ensures Render(d, origin, pathname).value.previewCode == d.savedCode
    ensures !IsUnsaved(d) ==> Render(d, origin, pathname).value.control == ExampleLink(DocumentLink(d, origin, pathname).value)
  {
  }

  /**
   * Opening the link of a document reproduces its saved text as both working
   * and saved text, except that an empty saved text comes back as the
   * default content.
   */
  lemma OpenSharedLink(d: Document, origin: string, pathname: string)
    requires IsLatin1(d.savedCode)
    requires '?' !in origin + pathname && '#' !in origin + pathname
    ensures DocumentLink(d, origin, pathname).Success?
    ensures var text := if d.savedCode == "" then DEFAULT_CONTENT else d.savedCode;
            Startup(DocumentLink(d, origin, pathname).value) == Success(Document(text, text))
  {
    ShareLinkRoundTrip(d.savedCode, origin, pathname);
  }

  /**
   * A `content` parameter that `atob` rejects is not caught: the page fails
   * to start rather than falling back to the default content.
   */
  lemma MalformedLinkThrows(href: string)
    requires SearchParam(href, CONTENT_PARAM).Some? && Atob(SearchParam(href, CONTENT_PARAM).value).Failure?
    ensures Startup(href) == Failure(InvalidCharacterError)
  {
  }

  /** In particular, a parameter holding a character outside the Base64 alphabet, whitespace and `=` throws. */
  lemma ForeignCharacterLinkThrows(href: string, k: nat)
    requires SearchParam(href, CONTENT_PARAM).Some?
    requires k < |SearchParam(href, CONTENT_PARAM).value|
    requires var c := SearchParam(href, CONTENT_PARAM).value[k];
             !IsAlphabet(c) && !IsAsciiWhitespace(c) && c != '='
    ensures Startup(href) == Failure(InvalidCharacterError)
  {
    AtobRejectsForeign(SearchParam(href, CONTENT_PARAM).value, k);
    MalformedLinkThrows(href);
  }

  /** Such links exist on every page: `?content=%` decodes to `%`, which `atob` rejects. */
  lemma PercentLinkThrows(origin: string, pathname: string)
    requires '?' !in origin + pathname && '#' !in origin + pathname
    ensures Startup(origin + pathname + "?" + (CONTENT_PARAM + "=%")) == Failure(InvalidCharacterError)
  {
    var href := origin + pathname + "?" + (CONTENT_PARAM + "=%");
    LonePercentParam(origin + pathname);
    ForeignCharacterLinkThrows(href, 0);
  }

  /** The `content` parameter of `<page>?content=%` reads back as a lone `%`. */
  lemma LonePercentParam(page: string)
    requires '?' !in page && '#' !in page
    ensures SearchParam(page + "?" + (CONTENT_PARAM + "=%"), CONTENT_PARAM) == Some("%")
  {
    ContentQueryHasNoFragment("%");
    QueryOfAppend(page, CONTENT_PARAM + "=%");
    SearchContent(page + "?" + (CONTENT_PARAM + "=%"), "%");
    DecodeLonePercent();
  }
}

=== FILE: query.dfy ===
/**
 * Reading one parameter out of a URL: the query of the URL (the text after
 * the first `?` and before the fragment), parsed as
 * application/x-www-form-urlencoded (section 5.1 of the WHATWG URL Standard),
 * then looked up by name as `URLSearchParams.get` does.
 */
module FormUrlencoded {
  import opened Results
  import opened Base64
  import opened PercentEncoding

  /** The position of the first occurrence of a character. */
  function IndexOf(s: string, c: char): (i: nat)
    requires c in s
    ensures i < |s| && s[i] == c && c !in s[..i]
  {
    if s[0] == c then 0
    else
      assert s[1..][IndexOf(s[1..], c)] == c;
      1 + IndexOf(s[1..], c)
  }

  // ---------------------------------------------------------------- splitting

  /** The pieces between the separators, as many as there are separators plus one. */
  function Split(s: string, sep: char): (parts: seq<string>)
    ensures |parts| >= 1
    ensures forall i :: 0 <= i < |parts| ==> sep !in parts[i]
    decreases |s|
  {
    if sep in s then
      var i := IndexOf(s, sep);
      [s[..i]] + Split(s[i + 1..], sep)
    else [s]
  }

  /** The pieces glued back together with the separator between them. */
  function Join(parts: seq<string>, sep: char): string
    requires |parts| >= 1
  {
    if |parts| == 1 then parts[0] else parts[0] + [sep] + Join(parts[1..], sep)
  }

  /** Splitting loses nothing: joining the pieces gives the input back. */
  lemma {:induction false} JoinSplit(s: string, sep: char)
    ensures Join(Split(s, sep), sep) == s
    decreases |s|
  {
    if sep in s {
      var i := IndexOf(s, sep);
      JoinSplit(s[i + 1..], sep);
      assert Split(s, sep)[1..] == Split(s[i + 1..], sep);
      assert s == s[..i] + [sep] + s[i + 1..];
    }
  }

  /** The first separator of `p + [sep] + rest` is the one after `p`, when `p` has none. */
  lemma {:induction false} IndexOfAfter(p: string, sep: char, rest: string)
    requires sep !in p
    ensures sep in p + [sep] + rest
    ensures IndexOf(p + [sep] + rest, sep) == |p|
    decreases |p|
  {
    var s := p + [sep] + rest;
    assert s[|p|] == sep;
    if p != [] {
      assert s[1..] == p[1..] + [sep] + rest;
      assert sep !in p[1..] by {
        forall i | 0 <= i < |p[1..]|
          ensures p[1..][i] != sep
        {
          assert p[1..][i] == p[i + 1];
        }
      }
      IndexOfAfter(p[1..], sep, rest);
    }
  }

  /** Pieces free of the separator are exactly what splitting their join gives. */
  lemma {:induction false} SplitJoin(parts: seq<string>, sep: char)
    requires |parts| >= 1
    requires forall i :: 0 <= i < |parts| ==> sep !in parts[i]
    ensures Split(Join(parts, sep), sep) == parts
    decreases |parts|
  {
    var p := parts[0];
    assert sep !in p;
    if |parts| > 1 {
      var rest := Join(parts[1..], sep);
      var s := Join(parts, sep);
      assert s == p + [sep] + rest;
      IndexOfAfter(p, sep, rest);
      assert s[..|p|] == p;
      assert s[|p| + 1..] == rest;
      SplitJoin(parts[1..], sep);
      assert Split(s, sep) == [p] + Split(rest, sep);
      assert parts == [p] + parts[1..];
    }
  }

  // ---------------------------------------------------------------- decoding

  /**
   * UTF-8 decoding of the percent-decoded bytes, reduced to what this model
   * needs: ASCII bytes become the same characters and every other byte
   * becomes U+FFFD.
   */
  function Utf8DecodeLossy(b: seq<Byte>): (s: string)
    ensures |s| == |b|
    ensures forall i :: 0 <= i < |b| ==> (s[i] as int < 128 <==> b[i] < 128)
    ensures forall i :: 0 <= i < |b| && b[i] < 128 ==> s[i] as int == b[i]
  {
    if b == [] then "" else [if b[0] < 128 then b[0] as char else '\U{FFFD}'] + Utf8DecodeLossy(b[1..])
  }

  /** On ASCII text the decoding gives back the characters of the bytes. */
  lemma Utf8DecodeAscii(s: string)
    requires IsAscii(s)
    ensures IsLatin1(s)
    ensures Utf8DecodeLossy(ToBytes(s)) == s
  {
  }

  /** Every `+` becomes a space, as form encoding writes spaces. */
  function ReplacePlus(s: string): (r: string)
    ensures |r| == |s| && '+' !in r
    ensures forall i :: 0 <= i < |s| && s[i] != '+' ==> r[i] == s[i]
    ensures forall i :: 0 <= i < |s| && s[i] == '+' ==> r[i] == ' '
  {
    if s == [] then "" else [if s[0] == '+' then ' ' else s[0]] + ReplacePlus(s[1..])
  }

  /** A name or value as the parser decodes it: plus signs, then escapes, then UTF-8. */
  function DecodeComponent(s: string): (r: string)
    ensures IsAscii(s) && '%' !in s ==> r == ReplacePlus(s)
  {
    DecodePlainText(s);
    Utf8DecodeLossy(PercentDecode(ReplacePlus(s)))
  }

  /** Plain ASCII text without escapes only has its `+` turned into spaces. */
  lemma DecodePlainText(s: string)
    ensures IsAscii(s) && '%' !in s ==> Utf8DecodeLossy(PercentDecode(ReplacePlus(s))) == ReplacePlus(s)
  {
    if IsAscii(s) && '%' !in s {
      var t := ReplacePlus(s);
      assert IsAscii(t) && '%' !in t by {
        forall i | 0 <= i < |t|
          ensures t[i] as int < 128 && t[i] != '%'
        {
          if s[i] != '+' {
            assert t[i] == s[i];
          }
        }
      }
      Utf8EncodeAscii(t);
      Utf8DecodeAscii(t);
    }
  }

  /** A `%` with no two hex digits after it is not an escape: it decodes to itself. */
  lemma DecodeLonePercent()
    ensures DecodeComponent("%") == "%"
  {
    assert ReplacePlus("%") == "%";
    assert PercentDecode("%") == [37];
  }

  // ---------------------------------------------------------------- parsing

  /** One name-value pair of a query. */
  datatype Pair = Pair(name: string, value: string)

  /**
   * A non-empty piece is split at its first `=` into name and value; without
   * an `=` the whole piece is the name and the value is empty.
   */
  function ParsePair(piece: string): (p: Pair)
    ensures '=' !in piece ==> p == Pair(DecodeComponent(piece), "")
    ensures '=' in piece ==> exists i :: 0 <= i < |piece| && piece[i] == '=' && '=' !in piece[..i]
                               && p == Pair(DecodeComponent(piece[..i]), DecodeComponent(piece[i + 1..]))
  {
    if '=' in piece then
      var i := IndexOf(piece, '=');
      assert piece[i] == '=' && '=' !in piece[..i];
      Pair(DecodeComponent(piece[..i]), DecodeComponent(piece[i + 1..]))
    else Pair(DecodeComponent(piece), "")
  }

  /** The pairs of the non-empty pieces, in order; empty pieces are skipped. */
  function ParsePieces(pieces: seq<string>): (pairs: seq<Pair>)
    ensures |pairs| <= |pieces|
    ensures |pieces| == 1 ==> pairs == if pieces[0] == "" then [] else [ParsePair(pieces[0])]
    ensures (forall i :: 0 <= i < |pieces| ==> pieces[i] == "") ==> pairs == []
    ensures (forall i :: 0 <= i < |pieces| ==> pieces[i] != "") ==>
              |pairs| == |pieces| && forall i :: 0 <= i < |pieces| ==> pairs[i] == ParsePair(pieces[i])
  {
    if pieces == [] then []
    else if pieces[0] == "" then ParsePieces(pieces[1..])
    else [ParsePair(pieces[0])] + ParsePieces(pieces[1..])
  }

  /** The application/x-www-form-urlencoded parser: split on `&`, then parse each piece. */
  function Parse(query: string): (pairs: seq<Pair>)
    ensures query == "" ==> pairs == []
    ensures '&' !in query && query != "" ==> pairs == [ParsePair(query)]
  {
    ParsePieces(Split(query, '&'))
  }

  /** A name without `=` is split from its value at the `=` after it, whatever the value holds. */
  lemma ParsePairAt(name: string, value: string)
    requires '=' !in name
    ensures ParsePair(name + "=" + value) == Pair(DecodeComponent(name), DecodeComponent(value))
  {
    var piece := name + "=" + value;
    IndexOfAfter(name, '=', value);
    assert piece[..|name|] == name;
    assert piece[|name| + 1..] == value;
  }

  /** Parsing works piece by piece: the pairs of two runs of pieces are the pairs of each, in order. */
  lemma {:induction false} ParsePiecesAppend(a: seq<string>, b: seq<string>)
    ensures ParsePieces(a + b) == ParsePieces(a) + ParsePieces(b)
    decreases |a|
  {
    if a == [] {
      assert a + b == b;
    } else {
      assert (a + b)[0] == a[0];
      assert (a + b)[1..] == a[1..] + b;
      ParsePiecesAppend(a[1..], b);
    }
  }

  /** A query made of `&`-free pieces joined with `&` parses to the pairs of those pieces. */
  lemma ParseJoin(pieces: seq<string>)
    requires |pieces| >= 1
    requires forall i :: 0 <= i < |pieces| ==> '&' !in pieces[i]
    ensures Parse(Join(pieces, '&')) == ParsePieces(pieces)
  {
    SplitJoin(pieces, '&');
  }

  /** `URLSearchParams.get`: the value of the first pair with the name, or null. */
  function Get(pairs: seq<Pair>, name: string): (r: Option<string>)
    ensures r.None? <==> forall i :: 0 <= i < |pairs| ==> pairs[i].name != name
    ensures r.Some? ==> exists i :: 0 <= i < |pairs| && pairs[i] == Pair(name, r.value)
                                    && forall j :: 0 <= j < i ==> pairs[j].name != name
  {
    if pairs == [] then None
    else if pairs[0].name == name then Some(pairs[0].value)
    else
      var r := Get(pairs[1..], name);
      if r.Some? then
        var k :| 0 <= k < |pairs[1..]| && pairs[1..][k] == Pair(name, r.value)
                 && forall j :: 0 <= j < k ==> pairs[1..][j].name != name;
        assert pairs[k + 1] == Pair(name, r.value);
        r
      else r
  }

  // ---------------------------------------------------------------- URLs

  /** The URL without its fragment: everything before the first `#`. */
  function BeforeFragment(href: string): (h: string)
    ensures '#' !in h && |h| <= |href| && h == href[..|h|]
    ensures '#' in href ==> |h| < |href| && href[|h|] == '#'
    ensures '#' !in href ==> h == href
  {
    if '#' in href then href[..IndexOf(href, '#')] else href
  }

  /** The query of a URL: after the first `?` and before the fragment, or empty. */
  function QueryOf(href: string): (q: string)
    ensures '#' !in q
    ensures '?' !in href ==> q == ""
    ensures '?' !in BeforeFragment(href) ==> q == ""
  {
    var h := BeforeFragment(href);
    if '?' in h then h[IndexOf(h, '?') + 1..] else ""
  }

  /** `new URL(href).searchParams.get(name)`. */
  function SearchParam(href: string, name: string): (r: Option<string>)
    ensures QueryOf(href) == "" ==> r == None
    ensures '?' !in href ==> r == None
    ensures '?' !in BeforeFragment(href) ==> r == None
  {
    Get(Parse(QueryOf(href)), name)
  }

  /** The query of `base?rest` is `rest`, when the base has neither `?` nor `#` and rest has no `#`. */
  lemma QueryOfAppend(base: string, rest: string)
    requires '?' !in base && '#' !in base && '#' !in rest
    ensures QueryOf(base + "?" + rest) == rest
  {
    var href := base + "?" + rest;
    assert forall i :: 0 <= i < |href| ==> href[i] == if i < |base| then base[i] else if i == |base| then '?' else rest[i - |base| - 1];
    assert '#' !in href;
    assert href[|base|] == '?';
    var i := IndexOf(href, '?');
    assert i == |base|;
    assert href[i + 1..] == rest;
  }

  /** The fragment is not part of the query: the query of `base?rest#frag` is `rest`. */
  lemma QueryOfWithFragment(base: string, rest: string, frag: string)
    requires '?' !in base && '#' !in base && '#' !in rest
    ensures QueryOf(base + "?" + rest + "#" + frag) == rest
  {
    var url := base + "?" + rest;
    assert '#' !in url by {
      assert forall i :: 0 <= i < |url| ==> url[i] == if i <= |base| then (base + "?")[i] else rest[i - |base| - 1];
    }
    IndexOfAfter(url, '#', frag);
    var href := url + "#" + frag;
    assert href[..|url|] == url;
    assert BeforeFragment(href) == url;
    QueryOfAppend(base, rest);
  }
}

=== FILE: results.dfy ===
/** Failure-carrying values for the operations of the playground that can throw. */
module Results {

  /** A JavaScript value that may be absent (`null`). */
  datatype Option<+T> = None | Some(value: T)

  /** Either a computed value or the exception the browser would throw instead. */
  datatype Result<+T, +E> = Success(value: T) | Failure(error: E)
}
